=== FILE: README.md ===
# Overdraw audio processor, modelled in Dafny

Overdraw is a stereo waveshaping distortion plugin. This project models the
processor core:

- The per-block audio callback `OverdrawAudioProcessor::processBlock` for
  `double` buffers, with its helpers:
  - the mid-side transforms;
  - the smoothed gain stage `applyGain`;
  - the decibel conversion `toDB`.
- The single-precision callback, which runs the double-precision one on a
  conversion buffer.
- The processor's lifecycle: `reset` and `prepareToPlay`.
- Its configuration decisions: `updateOversamplingLatency` and
  `isBusesLayoutSupported`.
- The parameter layout declared when the parameters are created.

Samples are real numbers instead of doubles. A `Vec2d` is a pair of reals
(`Lanes.Vec2`).

The processor is a class, `PluginProcessor.OverdrawAudioProcessor`, whose
member arrays are updated in place:

- `gain` holds the input- and output-gain smoothers;
- `wetAmount` holds the dry/wet smoother;
- `vuMeterBuffer` holds the dry and wet meter envelopes and the meter reading;
- `vuMeterResults` holds the published meter values;
- the `dryBuffer` and `floatToDouble` channels are arrays of samples.

The loops of the source are methods with loop invariants. They rewrite
channel arrays in place:

- the mid-side transforms;
- the gain ramp;
- the dry copy;
- the clear on the early return;
- the blend and meter loops;
- the store-back;
- the float/double copies.

Each method is proved against a function over values. The whole block is
described by `Processing.ProcessBlockSpec`: it maps the state and the input
frames before a block to a `BlockOutcome`. That outcome is one of two cases:

- the early return taken while the oversampler is still priming;
- the processed frames with the new state.

`ProcessBlock` is proved to leave the object's smoother and meter state, its
dry buffer and the two channels exactly as `ProcessBlockSpec` says. Each
lifecycle and block method also says whether the dry and conversion buffers
keep their channel arrays or get fresh ones. A caller can therefore run block
after block on the same host buffer. The lemmas beside it state what the source promises
about that function:

- the state kept on the early return;
- bypass passes the input through when not oversampling, and at every order
  outputs the dry path without storing the output gain or the envelopes;
- the wet amount is stored back only on the wet pass;
- the wet amount stays in [0, 1];
- the gains stay positive;
- the meter envelopes stay non-negative.

The range lemmas assume smoothing coefficients in [0, 1].
`Processing.CoefficientsInUnitRange` derives that bound for the block's own
coefficients from parameters in range and from the hypothesis that `exp`
maps non-positive arguments into (0, 1].

The processor calls code that is not modelled: the C math library, the
`oversimple` oversampler and the spline waveshaper. These are passed in as
oracles: values of function type (`Collaborators`). The only facts assumed of
them are:

- `exp` returns a positive number;
- `downSample` returns the number of frames it is asked for;
- the waveshaper keeps the number of frames.

The model has five files:

- `lanes.dfy`: the stereo pair.
- `collaborators.dfy`: the oracles and the host's block information.
- `parameters.dfy`: the layout and the values read at the top of a block.
- `processing.dfy`: the static helpers of `Source/Processing.cpp`, the block's
  value-level description and the lemmas about it.
- `plugin_processor.dfy`: the processor class and its small decisions.

The parameter `get(c)` of a linkable control (defined in `Linkables.h`) is
modelled as channel 0's value while linked, otherwise channel `c`'s.
`Linkables.h` is not part of this model. The field list follows the `.cpp`
files, because `Source/PluginProcessor.h` declares a different set of
members.

## Model

| member | source | states |
|---|---|---|
| `Parameters.CreateLinkableFloatParameters` | Source/PluginProcessor.cpp:58-65 | a linkable float control starts linked; both channels share the default and the range; its three identifiers differ |
| `Parameters.CreateLinkableBoolParameters` | Source/PluginProcessor.cpp:67-73 | a linkable switch starts linked; both channels share the default; its three identifiers differ |
| `Parameters.SuffixedIdsDistinct` | Source/PluginProcessor.cpp:54-56 | the suffixes `_is_linked`, `_ch0` and `_ch1` give three distinct identifiers for any name |
| `Parameters.LayoutRangesAndDefaults` | Source/PluginProcessor.cpp:84-100 | mid-side and linear phase default off; smoothing time is [0, 500] ms with default 50; there are six oversampling choices with default 1x; symmetry defaults on; wet is [0, 100] with default 100; both gains are [-48, 48] dB with default 0 |
| `Parameters.LayoutIsConsistent` | Source/PluginProcessor.cpp:58-116 | every default lies in its range; every linkable control starts linked with both channels declared alike; there is one knot flag per knot |
| `Parameters.IsKnotActive` | Source/PluginProcessor.cpp:102-107 | a knot starts enabled exactly when its index is 7, 9 or 11 |
| `Parameters.ParameterLayout` | Source/PluginProcessor.cpp:84-116 | the layout the constructor declares; it has no contract of its own, and its ranges, defaults and knot flags are stated by `LayoutRangesAndDefaults`, `LayoutIsConsistent` and `DefaultActiveKnots` |
| `Parameters.DefaultActiveKnots` | Source/PluginProcessor.cpp:102-116 | of the 15 knots, exactly 7, 9 and 11 start enabled |
| `Parameters.LinkedResolution` | Source/Processing.cpp:122-132 | a linked control gives channel 0's value to both channels; an unlinked one gives each channel its own |
| `Processing.Deinterleave` | Source/Processing.cpp:270-283 | the frames land in the two channels from sample 0; later samples are untouched |
| `Processing.CopyChannel` | Source/Processing.cpp:157-161 | the first `n` samples are copied; the rest of the destination is untouched |
| `Processing.ClearChannel` | Source/Processing.cpp:175-178 | the first `n` samples become 0; the rest are untouched |
| `Processing.MidSideRoundTrip` | Source/Processing.cpp:22-42 | left/right to mid/side and back restores every frame, in both orders |
| `Processing.LeftRightToMidSide` | Source/Processing.cpp:22-31 | the first `n` frames become their mid/side transform in place; nothing past `n` changes |
| `Processing.MidSideToLeftRight` | Source/Processing.cpp:33-42 | the first `n` frames become their left/right transform in place; nothing past `n` changes |
| `Processing.NewFrameBuffer` | Source/Processing.cpp:211-223 | the wet output buffer that the dry/wet stage rewrites, holding exactly the given frames |
| `Processing.StoreFrames` | Source/Processing.cpp:270-289 | the channels hold the stored frames, transformed back to left/right when mid-side is on; later samples are untouched |
| `Processing.IterateClosedForm` | Source/Processing.cpp:53 | after `k` smoother steps the distance to the target has shrunk by `alpha^k` |
| `Processing.IterateFixedPoint` | Source/Processing.cpp:53 | a smoother already at its target stays there |
| `Processing.IterateInstant` | Source/Processing.cpp:53 | with `alpha == 0` the smoother equals the target after one step |
| `Processing.SmoothBetween` | Source/Processing.cpp:53 | for `alpha` in [0, 1] one step lands between the state and the target |
| `Processing.IterateBetween` | Source/Processing.cpp:53 | for `alpha` in [0, 1] every iterate lies between the start and the target |
| `Processing.SettledRamp` | Source/Processing.cpp:51-56 | a settled gain smoother scales every frame by exactly the target gain |
| `Processing.InstantRamp` | Source/Processing.cpp:51-56 | with `alpha == 0` every frame is scaled by the target gain, and the state ends at the target |
| `Processing.ApplyGainToChannel` | Source/Processing.cpp:52-55 | sample `i` is multiplied by the `(i+1)`-th smoother iterate; the smoother cell ends at the `n`-th iterate; no other sample or cell changes |
| `Processing.ApplyGain` | Source/Processing.cpp:44-57 | both channels are scaled by the ramp of the chosen gain row; that row ends at the `n`-th iterate; the other row and samples past `n` are untouched |
| `Processing.SmoothingAlpha` | Source/Processing.cpp:85-92 | a smoothing time of 0 gives coefficient 0; any other time gives a positive coefficient |
| `Processing.Pow2` | Source/Processing.cpp:97 | the shift `1 << k` is at least 1 and equals `2^k` computed over the reals |
| `Processing.OversamplingRate` | Source/Processing.cpp:95-97 | the oversampling factor `2^order` is at least 1 |
| `Processing.OversamplingChoiceRates` | Source/Processing.cpp:95-97 | the six oversampling choices give the factors 1, 2, 4, 8, 16 and 32 |
| `Processing.WetAmountTarget` | Source/Processing.cpp:122-124 | with parameters in range the wet target lies in [0, 1]; a linked control gives equal lanes |
| `Processing.GainTarget` | Source/Processing.cpp:126-128 | the gain targets are positive; a linked control gives equal lanes |
| `Processing.BlockSettingsOf` | Source/Processing.cpp:81-132 | both smoothing coefficients are 0 exactly when the smoothing time is 0, and positive otherwise; oversampling is on exactly when the order is positive; the meter coefficient is positive |
| `Processing.CoefficientsInUnitRange` | Source/Processing.cpp:85-117 | if `exp` maps non-positive arguments into (0, 1] and the parameters are in range, both smoothing coefficients lie in [0, 1] and the meter coefficient in (0, 1] |
| `Processing.UpsampledAlphaUsesOversampledRate` | Source/Processing.cpp:110-117 | the spline's coefficient is the smoothing coefficient at the oversampled rate `sampleRate · 2^order` |
| `Processing.IsWetPassNeeded` | Source/Processing.cpp:134-145 | the blend is skipped when the target and current amounts are all 1 or all 0 |
| `Processing.WetPassDecision` | Source/Processing.cpp:134-145 | with amounts in [0, 1] the blend is skipped exactly when target and current are all 1 or all 0 |
| `Processing.IsBypassing` | Source/Processing.cpp:134-147 | bypassing holds exactly when the wet target and the current amount are 0 on both channels |
| `Processing.Mix` | Source/Processing.cpp:245 | amount 1 yields the wet sample; amount 0 yields the dry sample |
| `Processing.MixBetween` | Source/Processing.cpp:245 | an amount in [0, 1] blends to a value between the dry and the wet sample |
| `Processing.SettledBlend` | Source/Processing.cpp:235-253 | skipping the blend is sound: settled at 1 the blend gives the wet frames, settled at 0 the dry frames |
| `Processing.ToDB` | Source/Processing.cpp:59-64 | `(10 / ln 10) · log(x + FLT_MIN)` on each lane; it has no contract because `log` is an oracle |
| `Processing.MeterReading` | Source/Processing.cpp:278-280 | the reading is 0 dB on both lanes when the wet envelope equals the dry envelope scaled by the squared product of the gain targets |
| `Processing.MeterReadingLogArgumentsPositive` | Source/Processing.cpp:59-64 | with non-negative envelopes, every argument that `toDB` passes to `log` is positive, thanks to the added `FLT_MIN` |
| `Processing.EnvelopeNonNegative` | Source/Processing.cpp:246-249 | for a coefficient in [0, 1] and a non-negative start, the meter envelope of squares stays non-negative |
| `Processing.WetPass` | Source/Processing.cpp:235-253 | the buffer holds the blend of the gained wet frames with the dry frames; the amount and output gain end at their `n`-th iterates; the meters end at the envelopes of the wet and dry squares |
| `Processing.OutputGainPass` | Source/Processing.cpp:254-268 | the buffer holds the gained wet frames; the output gain ends at its `n`-th iterate; the meters end at the envelopes of the wet and dry squares |
| `Processing.Mixdown` | Source/Processing.cpp:226-283 | the dry/wet stage keeps the block's length and the input gain; the published meter value equals the new meter reading |
| `Processing.Resample` | Source/Processing.cpp:169-216 | it primes exactly when oversampling and upsampling produced no frames; otherwise it returns wet and dry frames of the block's length; without oversampling the dry frames are untouched, and so are the wet frames when bypassing |
| `Processing.BlockTail` | Source/Processing.cpp:169-289 | the early return happens exactly when the oversampler produced nothing, and then the state is unchanged; otherwise the frames keep the block's length |
| `Processing.ProcessBlockSpec` | Source/Processing.cpp:66-295 | a block keeps the length; the input-gain smoother ends at its `n`-th iterate; the early return happens exactly when oversampling upsampled the gained frames to nothing |
| `Processing.SilencedBlockKeepsState` | Source/Processing.cpp:165-180 | on the early return only the input gain has advanced; the wet amount, output gain and meters keep their values; the dry buffer holds the (mid-side) input |
| `Processing.BypassPassesInputThrough` | Source/Processing.cpp:270-289 | bypassing without oversampling returns the input unchanged in either mid-side mode; it zeroes the meter reading and leaves the output gain and envelopes as they were |
| `Processing.BypassOutputsDryPath` | Source/Processing.cpp:270-276 | at any oversampling order, a bypassed block past the early return outputs the resampled dry frames, back in left/right when mid-side is on; it zeroes the meter reading and stores no other state beyond the input gain |
| `Processing.WetAmountStoredOnlyOnWetPass` | Source/Processing.cpp:235-253 | the wet amount is unchanged when no blend is needed; after a processed blend it is the `n`-th iterate towards the target |
| `Processing.WetAmountStaysInUnitRange` | Source/Processing.cpp:237-252 | with the amount, its target and the coefficient in [0, 1], the stored wet amount stays in [0, 1] |
| `Processing.GainsStayPositive` | Source/Processing.cpp:165-275 | gain smoothers that start positive and run to positive targets stay positive |
| `Processing.MeterEnvelopesStayNonNegative` | Source/Processing.cpp:231-277 | with a meter coefficient in [0, 1], the stored meter envelopes stay non-negative |
| `PluginProcessor.IsBusesLayoutSupported` | Source/PluginProcessor.cpp:206-214 | the layout is accepted if and only if the main input and output both have two channels |
| `PluginProcessor.OversamplingLatency` | Source/PluginProcessor.cpp:123-135 | the latency is 0 without linear phase, and otherwise the signal oversampler's linear-phase latency at the order |
| `PluginProcessor.ResetState` | Source/PluginProcessor.cpp:185-203 | after reset each smoother sits at its target: the wet amount at the wet target (in [0, 1] for parameters in range) and both gains at their gain targets, which are positive; the meters are zero |
| `PluginProcessor.ResetSettlesSmoothers` | Source/PluginProcessor.cpp:185-203 | after reset, a block with the same parameters finds every smoother at its target, so the ramps are flat; at 100% wet the blend is skipped |
| `PluginProcessor.OverdrawAudioProcessor.constructor` | Source/PluginProcessor.h:72 | both gain smoothers start at unity; the other member arrays start at zero; the dry and conversion channels are fresh arrays |
| `PluginProcessor.OverdrawAudioProcessor.UpdateOversamplingLatency` | Source/PluginProcessor.cpp:123-135 | the reported latency is `OversamplingLatency` of the order and the linear-phase flag |
| `PluginProcessor.OverdrawAudioProcessor.Reset` | Source/PluginProcessor.cpp:185-203 | the member state becomes `ResetState` of the current parameters |
| `PluginProcessor.OverdrawAudioProcessor.SetDryNumSamples` | Source/PluginProcessor.cpp:177 | the dry buffer holds at least `n` samples; it is replaced only when too short |
| `PluginProcessor.OverdrawAudioProcessor.PrepareToPlay` | Source/PluginProcessor.cpp:172-183 | the conversion buffer holds exactly the announced block size; the dry buffer holds at least that and is either kept or replaced by fresh channels; the state is the reset state |
| `PluginProcessor.OverdrawAudioProcessor.FrontEnd` | Source/Processing.cpp:149-165 | the dry buffer holds the (mid-side) input; the channels hold that input under the input-gain ramp; only the input-gain row advanced |
| `PluginProcessor.OverdrawAudioProcessor.DryWet` | Source/Processing.cpp:226-283 | the frames and the stored smoothers and meters are those of `Mixdown` on the state before the stage |
| `PluginProcessor.OverdrawAudioProcessor.MixAndStore` | Source/Processing.cpp:209-294 | the state, including the published meter values, is `Mixdown`'s; the channels hold its frames back in left/right |
| `PluginProcessor.OverdrawAudioProcessor.BackEnd` | Source/Processing.cpp:167-294 | the state is `BlockTail`'s; on the early return both channels are zero over the block; otherwise they hold `BlockTail`'s frames |
| `PluginProcessor.OverdrawAudioProcessor.ProcessStereo` | Source/Processing.cpp:149-294 | the state, the dry buffer and the two channels are what `ProcessBlockSpec` gives for the state and frames before the call; the dry buffer is kept or replaced by fresh channels |
| `PluginProcessor.OverdrawAudioProcessor.ProcessBlock` | Source/Processing.cpp:66-295 | with the settings read from the parameters and the host, the new state and dry buffer are `ProcessBlockSpec`'s; on the early return every output channel is zero, otherwise the two channels hold its frames; the dry buffer is kept or replaced by fresh channels |
| `PluginProcessor.OverdrawAudioProcessor.SetFloatNumSamples` | Source/PluginProcessor.cpp:224 | the conversion buffer holds exactly `n` samples; it is kept when it already had that length |
| `PluginProcessor.OverdrawAudioProcessor.CopyIn` | Source/PluginProcessor.cpp:224-230 | the conversion buffer has the block's length; the first `numChannels` channels equal the caller's; the processor's state is unchanged |
| `PluginProcessor.OverdrawAudioProcessor.CopyOut` | Source/PluginProcessor.cpp:234-238 | the first `numChannels` channels receive the conversion buffer's samples; channels from `numChannels` on are not written |
| `PluginProcessor.OverdrawAudioProcessor.ProcessBlockFloat` | Source/PluginProcessor.cpp:217-239 | the single-precision block has the effect `ProcessBlockSpec` gives for the caller's frames: the same state, zeroed outputs on the early return, otherwise its frames; the dry and conversion buffers are each kept or replaced by fresh channels |

## Left out

- Floating point: samples, coefficients and meters are reals. Nothing is
  claimed about double or float rounding, denormals (`ScopedNoDenormals`), the
  SIMD layout of `Vec2d` or the `(float)` casts of the published meter values.
- `exp` and `log` are oracles. Only `exp(x) > 0` is assumed, so the exact dB
  values of `toDB` and of the meter reading are not known to the model.
- The `oversimple` oversampler is an oracle: filter design, `prepareBuffers`,
  interleaving, latency values and the filters' history between blocks are
  all folded into it. `setOrder` and `setUseLinearPhase` are not separate
  state; the configuration is passed to each upsampling and downsampling
  call.
- The spline waveshaper is an opaque transform of the upsampled frames. Its
  evaluation, `updateSpline`, `spline->reset()` and the automator's own
  smoothing are not part of this model. Only the settings handed to it are
  modelled: the active-knot count, the symmetry flags and the upsampled
  smoothing coefficient.
- `Linkables.h` is not part of this model. The linked/unlinked resolution of
  `get(c)` is stated by `Parameters.LinkedResolution`.
- The editor, state serialisation, program and MIDI handling, the look and
  feel, and `AudioProcessorValueTreeState` internals are left out.
- Cross-thread parameter reads and asynchronous oversampling are concurrency
  and are left out. A block reads one `Snapshot` of the parameters.
- The dry/wet stage blends a fresh copy of the wet frames (`Processing.NewFrameBuffer`) rather than the oversampler's own output buffer. The model does not capture that the source rewrites that buffer in place, nor any aliasing with it.
- `1 << order` is modelled as the unbounded `2^order`. The layout allows only
  orders 0 to 5, so the shift cannot overflow.
- PluginProcessor.OverdrawAudioProcessor.ProcessBlock: it is modelled only for
  the layout `isBusesLayoutSupported` accepts. That means two input and two
  output channels, and a buffer of exactly two channels of the block's
  length. The source clears every output channel on the early return; with
  this layout those are the two channels.
- PluginProcessor.OverdrawAudioProcessor.ProcessBlockFloat: it is modelled
  only for the accepted stereo layout. There, all the input channels are
  copied in and out.
- PluginProcessor.OverdrawAudioProcessor.CopyIn: it takes at most two
  channels, the width of the conversion buffer.
- PluginProcessor.OverdrawAudioProcessor.CopyOut: it takes at most two
  channels, the width of the conversion buffer.
- PluginProcessor.OverdrawAudioProcessor.SetFloatNumSamples: JUCE's
  `setSize(..., avoidReallocating = true)` may keep a larger allocation. The
  model allocates a new channel pair of exactly `n` samples whenever the
  length changes, so the identity of the channels may differ from the
  source's.
- PluginProcessor.OverdrawAudioProcessor.constructor: `Source/PluginProcessor.h`
  initialises only `gain`. The model starts the other member arrays at zero,
  and `prepareToPlay` resets them before any block.
- The dry buffer is a pair of channels at least as long as the block, and only
  its first `n` samples are described.
- `setLatencySamples` is modelled as the field `latencySamples`. The host
  notification it triggers is left out.

=== FILE: collaborators.dfy ===
/** The code the processor calls but that is not modelled: the C math library,
    the oversampling library and the spline waveshaper. Each is an oracle, a
    value of function type that the caller passes in; the model knows of it
    only what its type and the `Valid` predicates below say. */
module Collaborators {
  import opened Lanes

  /** Strictly positive reals: the range of `exp`. */
  type Positive = r: real | r > 0.0 witness 1.0

  /** `exp` and `log` of the C math library. The only fact assumed of `exp` is
      that its result is positive; nothing is assumed of `log`. */
  datatype Math = Math(exp: real -> Positive, log: real -> real)

  /** What `setOrder` and `setUseLinearPhase` configure on an oversampler. */
  datatype OversamplerConfig = OversamplerConfig(order: nat, linearPhase: bool)

  /** One oversampler (the processor owns two: `signal` and `dry`).
      `upSample` maps the block's frames to the upsampled interleaved frames;
      the number of frames it returns is the produced-sample count, which is 0
      while the filters are priming. `downSample` brings an upsampled buffer
      back to the requested number of frames. `latency` is `getLatency(order,
      linearPhase)`. The filters' history between blocks is folded into the
      values these functions return for the current block. */
  datatype Oversampler = Oversampler(
    upSample: (OversamplerConfig, seq<Vec2>) -> seq<Vec2>,
    downSample: (OversamplerConfig, seq<Vec2>, nat) -> seq<Vec2>,
    latency: (nat, bool) -> nat)
  {
    /** `downSample` delivers exactly the number of frames asked for. */
    ghost predicate Valid() {
      forall cfg, x, n :: |downSample(cfg, x, n)| == n
    }
  }

  /** What the processor sets on the spline before shaping a block: the number
      of active knots reported by the knot parameters, the per-channel
      symmetry flags (1.0 or 0.0) and the automation smoothing coefficient. */
  datatype ShaperSettings = ShaperSettings(numActiveKnots: int, symmetric: Vec2, automationAlpha: real)

  /** The spline waveshaper, an in-place transform of an interleaved buffer. */
  datatype Waveshaper = Waveshaper(process: (ShaperSettings, seq<Vec2>) -> seq<Vec2>)
  {
    /** Shaping in place keeps the number of frames. */
    ghost predicate Valid() {
      forall s, x :: |process(s, x)| == |x|
    }
  }

  /** What the processor learns from its host for a block: the sample rate
      and the number of channels of the main input and output buses. */
  datatype Host = Host(sampleRate: Positive, numInputChannels: nat, numOutputChannels: nat)
}

=== FILE: lanes.dfy ===
/** Two-lane vectors: the stereo `Vec2d` of the processing code, one lane per
    channel, with samples modelled as reals rather than doubles. */
module Lanes {

  /** A stereo pair; lane `c0` is channel 0 (left or mid), `c1` channel 1 (right or side). */
  datatype Vec2 = Vec2(c0: real, c1: real) {
    /** The value of lane `c`. */
    function At(c: nat): real
      requires c < 2
    {
      if c == 0 then c0 else c1
    }
  }

  /** Both lanes zero. */
  const Zero: Vec2 := Vec2(0.0, 0.0)

  /** Broadcast of a scalar to both lanes. */
  function Splat(x: real): Vec2 {
    Vec2(x, x)
  }

  function Sub(a: Vec2, b: Vec2): Vec2 {
    Vec2(a.c0 - b.c0, a.c1 - b.c1)
  }

  /** Lane-wise product. */
  function Mul(a: Vec2, b: Vec2): Vec2 {
    Vec2(a.c0 * b.c0, a.c1 * b.c1)
  }

  /** Lane-wise square. */
  function Square(a: Vec2): Vec2 {
    Mul(a, a)
  }

  /** Both lanes lie in the closed interval [lo, hi]. */
  predicate Within(a: Vec2, lo: real, hi: real) {
    lo <= a.c0 <= hi && lo <= a.c1 <= hi
  }

  /** Both lanes are non-negative. */
  predicate NonNegative(a: Vec2) {
    0.0 <= a.c0 && 0.0 <= a.c1
  }
}

=== FILE: parameters.dfy ===
/** The processor's parameters: the layout declared when the parameters are
    created (identifiers, ranges, defaults, the default knot activity) and the
    values the audio callback reads at the top of each block. */
module Parameters {

  /** A continuous range with its step, as `NormalisableRange<float>`. */
  datatype Range = Range(min: real, max: real, step: real) {
    predicate Contains(x: real) {
      min <= x <= max
    }
  }

  datatype FloatParameter = FloatParameter(id: string, default: real, range: Range)

  datatype BoolParameter = BoolParameter(id: string, default: bool)

  datatype ChoiceParameter = ChoiceParameter(id: string, choices: seq<string>, defaultIndex: nat)

  /** A stereo control: a "linked" switch and one parameter per channel. */
  datatype LinkableParameter<P> = LinkableParameter(isLinked: BoolParameter, ch0: P, ch1: P)

  /** The knot parameters handed to the spline parameter set. */
  datatype KnotLayout = KnotLayout(maxNumKnots: nat, x: Range, y: Range, tension: Range, active: seq<bool>)

  datatype Layout = Layout(
    midSide: BoolParameter,
    smoothingTime: FloatParameter,
    oversamplingOrder: ChoiceParameter,
    oversamplingLinearPhase: BoolParameter,
    symmetry: LinkableParameter<BoolParameter>,
    wet: LinkableParameter<FloatParameter>,
    inputGain: LinkableParameter<FloatParameter>,
    outputGain: LinkableParameter<FloatParameter>,
    knots: KnotLayout)

  const Ch0Suffix: string := "_ch0"
  const Ch1Suffix: string := "_ch1"
  const LinkSuffix: string := "_is_linked"

  /** `maxNumKnots` of the processor. */
  const MaxNumKnots: nat := 15

  /** The knots enabled when the parameters are created. */
  const EnabledKnotIndices: seq<int> := [7, 9, 11]

  function CreateFloatParameter(name: string, value: real, min: real, max: real, step: real): FloatParameter {
    FloatParameter(name, value, Range(min, max, step))
  }

  /** Three parameters `<name>_is_linked` (default on), `<name>_ch0` and
      `<name>_ch1`, the two channels sharing default and range. */
  function CreateLinkableFloatParameters(name: string, value: real, min: real, max: real, step: real)
    : (p: LinkableParameter<FloatParameter>)
    ensures p.isLinked.default
    ensures p.ch0.default == value && p.ch1.default == value
    ensures p.ch0.range == p.ch1.range == Range(min, max, step)
    ensures p.isLinked.id != p.ch0.id && p.isLinked.id != p.ch1.id && p.ch0.id != p.ch1.id
  {
    SuffixedIdsDistinct(name);
    LinkableParameter(
      BoolParameter(name + LinkSuffix, true),
      CreateFloatParameter(name + Ch0Suffix, value, min, max, step),
      CreateFloatParameter(name + Ch1Suffix, value, min, max, step))
  }

  /** Boolean counterpart of `CreateLinkableFloatParameters`. */
  function CreateLinkableBoolParameters(name: string, value: bool): (p: LinkableParameter<BoolParameter>)
    ensures p.isLinked.default
    ensures p.ch0.default == value && p.ch1.default == value
    ensures p.isLinked.id != p.ch0.id && p.isLinked.id != p.ch1.id && p.ch0.id != p.ch1.id
  {
    SuffixedIdsDistinct(name);
    LinkableParameter(
      BoolParameter(name + LinkSuffix, true),
      BoolParameter(name + Ch0Suffix, value),
      BoolParameter(name + Ch1Suffix, value))
  }

  /** The three suffixes give three different identifiers for every name. */
  lemma SuffixedIdsDistinct(name: string)
    ensures name + LinkSuffix != name + Ch0Suffix
    ensures name + LinkSuffix != name + Ch1Suffix
    ensures name + Ch0Suffix != name + Ch1Suffix
  {
    var k := |name|;
    assert (name + LinkSuffix)[k + 1] == 'i' && (name + Ch0Suffix)[k + 1] == 'c';
    assert (name + LinkSuffix)[k + 1] != (name + Ch1Suffix)[k + 1];
    assert (name + Ch0Suffix)[k + 3] == '0' && (name + Ch1Suffix)[k + 3] == '1';
  }

  /** Whether knot `knotIndex` starts enabled. */
  function IsKnotActive(knotIndex: int): (active: bool)
    ensures active <==> knotIndex == 7 || knotIndex == 9 || knotIndex == 11
  {
    knotIndex in EnabledKnotIndices
  }

  /** The parameter layout built by the `Parameters` constructor. */
  function ParameterLayout(): Layout {
    Layout(
      BoolParameter("Mid-Side", false),
      CreateFloatParameter("Smoothing-Time", 50.0, 0.0, 500.0, 1.0),
      ChoiceParameter("Oversampling", ["1x", "2x", "4x", "8x", "16x", "32x"], 0),
      BoolParameter("Linear-Phase-Oversampling", false),
      CreateLinkableBoolParameters("Symmetry", true),
      CreateLinkableFloatParameters("Wet", 100.0, 0.0, 100.0, 1.0),
      CreateLinkableFloatParameters("Input-Gain", 0.0, -48.0, 48.0, 0.01),
      CreateLinkableFloatParameters("Output-Gain", 0.0, -48.0, 48.0, 0.01),
      KnotLayout(MaxNumKnots, Range(-2.0, 2.0, 0.0001), Range(-2.0, 2.0, 0.0001), Range(-20.0, 20.0, 0.01),
                 seq(MaxNumKnots, k => IsKnotActive(k))))
  }

  /** The ranges and defaults of the layout. */
  lemma LayoutRangesAndDefaults()
    ensures var l := ParameterLayout();
      && !l.midSide.default && !l.oversamplingLinearPhase.default
      && l.smoothingTime.range == Range(0.0, 500.0, 1.0) && l.smoothingTime.default == 50.0
      && |l.oversamplingOrder.choices| == 6 && l.oversamplingOrder.defaultIndex == 0
      && l.symmetry.ch0.default && l.symmetry.ch1.default
      && l.wet.ch0.range == Range(0.0, 100.0, 1.0) && l.wet.ch0.default == 100.0
      && l.inputGain.ch0.range == Range(-48.0, 48.0, 0.01) && l.inputGain.ch0.default == 0.0
      && l.outputGain.ch0.range == Range(-48.0, 48.0, 0.01) && l.outputGain.ch0.default == 0.0
  {
  }

  /** Every default lies in its range and every linkable control starts linked,
      with its two channels declared alike. */
  lemma LayoutIsConsistent()
    ensures var l := ParameterLayout();
      && l.smoothingTime.range.Contains(l.smoothingTime.default)
      && l.oversamplingOrder.defaultIndex < |l.oversamplingOrder.choices|
      && (forall p :: p in [l.wet, l.inputGain, l.outputGain] ==>
            p.isLinked.default && p.ch0.range == p.ch1.range && p.ch0.default == p.ch1.default
            && p.ch0.range.Contains(p.ch0.default))
      && l.symmetry.isLinked.default && l.symmetry.ch0.default == l.symmetry.ch1.default
      && |l.knots.active| == l.knots.maxNumKnots
  {
    var l := ParameterLayout();
    assert l.wet.ch0.range.Contains(l.wet.ch0.default);
    assert l.inputGain.ch0.range.Contains(l.inputGain.ch0.default);
    assert l.outputGain.ch0.range.Contains(l.outputGain.ch0.default);
  }

  /** Of the `MaxNumKnots` knots, exactly 7, 9 and 11 start enabled. */
  lemma DefaultActiveKnots()
    ensures var active := ParameterLayout().knots.active;
      |active| == MaxNumKnots && (set k | 0 <= k < |active| && active[k]) == {7, 9, 11}
  {
    var active := ParameterLayout().knots.active;
    assert forall k :: 0 <= k < |active| ==> (active[k] <==> k == 7 || k == 9 || k == 11);
  }

  /** The current value of a linkable control: its link flag and both
      channels' stored values. */
  datatype Linked<T> = Linked(isLinked: bool, ch0: T, ch1: T) {
    /** The value that governs channel `c`: channel 0's while linked. */
    function Get(c: nat): T
      requires c < 2
    {
      if isLinked || c == 0 then ch0 else ch1
    }
  }

  /** The parameter values read at the top of a block. `numActiveKnots` is
      what the knot parameters report when the spline is updated. */
  datatype Snapshot = Snapshot(
    midSide: bool,
    smoothingTime: real,
    oversamplingOrder: nat,
    oversamplingLinearPhase: bool,
    symmetry: Linked<bool>,
    wet: Linked<real>,
    inputGain: Linked<real>,
    outputGain: Linked<real>,
    numActiveKnots: int)
  {
    /** `gain[i]`: 0 is the input gain, 1 the output gain (dB). */
    function Gain(i: nat): Linked<real>
      requires i < 2
    {
      if i == 0 then inputGain else outputGain
    }

    /** Every value lies in the range the layout declares for it (the host
        clamps automation to the declared ranges). */
    predicate InRange() {
      var l := ParameterLayout();
      && l.smoothingTime.range.Contains(smoothingTime)
      && oversamplingOrder < |l.oversamplingOrder.choices|
      && l.wet.ch0.range.Contains(wet.ch0) && l.wet.ch1.range.Contains(wet.ch1)
      && l.inputGain.ch0.range.Contains(inputGain.ch0) && l.inputGain.ch1.range.Contains(inputGain.ch1)
      && l.outputGain.ch0.range.Contains(outputGain.ch0) && l.outputGain.ch1.range.Contains(outputGain.ch1)
    }
  }

  /** Linking makes channel 1 follow channel 0; unlinked, each channel has its own value. */
  lemma LinkedResolution<T>(p: Linked<T>)
    ensures p.Get(0) == p.ch0
    ensures p.isLinked ==> p.Get(1) == p.ch0
    ensures !p.isLinked ==> p.Get(1) == p.ch1
  {
  }
}

=== FILE: plugin_processor.dfy ===
/** The audio processor object: the member state the audio callback updates
    in place, its lifecycle (`reset`, `prepareToPlay`), the double- and
    single-precision block callbacks and the small configuration decisions. */
module PluginProcessor {
  import opened Lanes
  import opened Collaborators
  import opened Parameters
  import opened Processing

  /** `isBusesLayoutSupported`: stereo in, stereo out, nothing else. */
  function IsBusesLayoutSupported(mainInputChannels: nat, mainOutputChannels: nat): (ok: bool)
    ensures ok <==> mainInputChannels == 2 && mainOutputChannels == 2
  {
    mainOutputChannels == 2 && mainInputChannels == 2
  }

  /** The latency `updateOversamplingLatency` reports: the signal
      oversampler's linear-phase latency at the chosen order, or none with
      minimum-phase filters. */
  function OversamplingLatency(order: nat, linearPhase: bool, signal: Oversampler): (latency: nat)
    ensures !linearPhase ==> latency == 0
    ensures linearPhase ==> latency == signal.latency(order, true)
  {
    if linearPhase then signal.latency(order, true) else 0
  }

  /** The state `reset` establishes: each smoother at its target for the
      current parameters, meters at zero. */
  function ResetState(snap: Snapshot, math: Math): (st: ProcessorState)
    ensures st.wetAmount == WetAmountTarget(snap)
    ensures st.inputGain == GainTarget(math, snap, 0) && st.outputGain == GainTarget(math, snap, 1)
    ensures Positive2(st.inputGain) && Positive2(st.outputGain)
    ensures snap.InRange() ==> Within(st.wetAmount, 0.0, 1.0)
    ensures st.vuMeterDry == st.vuMeterWet == st.vuMeter == st.vuMeterResults == Zero
  {
    ProcessorState(GainTarget(math, snap, 0), GainTarget(math, snap, 1), WetAmountTarget(snap), Zero, Zero, Zero, Zero)
  }

  /** After `reset`, a block run with the same parameters starts with every
      smoother settled: the ramps are flat, and at 100% wet the blend is
      skipped. */
  lemma ResetSettlesSmoothers(snap: Snapshot, host: Host, math: Math, k: nat)
    ensures var st := ResetState(snap, math);
      var bs := BlockSettingsOf(snap, host, math);
      && IterateV(st.inputGain, bs.inputGainTarget, bs.automationAlpha, k) == st.inputGain
      && IterateV(st.outputGain, bs.outputGainTarget, bs.automationAlpha, k) == st.outputGain
      && IterateV(st.wetAmount, bs.wetAmountTarget, bs.automationAlpha, k) == st.wetAmount
      && (snap.wet.Get(0) == 100.0 && snap.wet.Get(1) == 100.0 ==> !IsWetPassNeeded(bs.wetAmountTarget, st.wetAmount))
  {
    var st := ResetState(snap, math);
    var alpha := BlockSettingsOf(snap, host, math).automationAlpha;
    IterateFixedPoint(st.inputGain.c0, alpha, k);
    IterateFixedPoint(st.inputGain.c1, alpha, k);
    IterateFixedPoint(st.outputGain.c0, alpha, k);
    IterateFixedPoint(st.outputGain.c1, alpha, k);
    IterateFixedPoint(st.wetAmount.c0, alpha, k);
    IterateFixedPoint(st.wetAmount.c1, alpha, k);
  }

  class OverdrawAudioProcessor {
    /** `gain[i][c]`: row 0 is the input-gain smoother, row 1 the output-gain
        smoother, one column per channel. */
    const gain: array2<real>
    /** The smoothed dry/wet amount, per channel. */
    const wetAmount: array<real>
    /** The dry envelope, the wet envelope and the meter reading. */
    const vuMeterBuffer: array<Vec2>
    /** The meter reading published to the editor. */
    const vuMeterResults: array<real>
    /** Two channels holding the (mid-side) input of the current block. */
    var dryBuffer: seq<array<real>>
    /** The two double-precision channels used by the single-precision callback. */
    var floatToDouble: seq<array<real>>
    /** The latency last reported to the host. */
    var latencySamples: nat

    /** The shapes of the fixed member arrays. */
    predicate Shaped() {
      && gain.Length0 == 2 && gain.Length1 == 2
      && wetAmount.Length == 2
      && vuMeterBuffer.Length == 3
      && vuMeterResults.Length == 2
      && wetAmount != vuMeterResults
    }

    /** A two-channel buffer owned by the processor, with equal capacities. */
    predicate IsOwnBuffer(channels: seq<array<real>>) {
      && |channels| == 2
      && channels[0] != channels[1]
      && channels[0].Length == channels[1].Length
      && IsNotMemberArray(channels[0]) && IsNotMemberArray(channels[1])
    }

    /** `a` is neither `wetAmount` nor `vuMeterResults`. */
    predicate IsNotMemberArray(a: array<real>) {
      a != wetAmount && a != vuMeterResults
    }

    /** `a` is neither a dry channel nor one of the fixed member arrays. */
    predicate IsForeign(a: array<real>)
      requires |dryBuffer| == 2
      reads this
    {
      IsNotMemberArray(a) && a != dryBuffer[0] && a != dryBuffer[1]
    }

    /** The dry and the conversion buffers are each owned and share no channel. */
    predicate OwnsBuffers(dry: seq<array<real>>, float: seq<array<real>>) {
      && IsOwnBuffer(dry)
      && IsOwnBuffer(float)
      && dry[0] != float[0] && dry[0] != float[1]
      && dry[1] != float[0] && dry[1] != float[1]
    }

    ghost predicate Valid()
      reads this
    {
      Shaped() && OwnsBuffers(dryBuffer, floatToDouble)
    }

    /** The member state as a value. */
    function State(): ProcessorState
      requires Shaped()
      reads gain, wetAmount, vuMeterBuffer, vuMeterResults
    {
      ProcessorState(
        GainRow(gain, 0),
        GainRow(gain, 1),
        Vec2(wetAmount[0], wetAmount[1]),
        vuMeterBuffer[0], vuMeterBuffer[1], vuMeterBuffer[2],
        Vec2(vuMeterResults[0], vuMeterResults[1]))
    }

    /** The first `n` frames of the dry buffer. */
    function DryFrames(n: nat): seq<Vec2>
      requires |dryBuffer| == 2 && n <= dryBuffer[0].Length && n <= dryBuffer[1].Length
      reads this, dryBuffer[0], dryBuffer[1]
    {
      Frames(dryBuffer[0], dryBuffer[1], n)
    }

    /** Both gain smoothers start at unity; the other member arrays start at zero. */
    constructor()
      ensures Valid() && fresh(gain) && fresh(wetAmount) && fresh(vuMeterBuffer) && fresh(vuMeterResults)
      ensures fresh(dryBuffer[0]) && fresh(dryBuffer[1]) && fresh(floatToDouble[0]) && fresh(floatToDouble[1])
      ensures State() == ProcessorState(Splat(1.0), Splat(1.0), Zero, Zero, Zero, Zero, Zero)
      ensures latencySamples == 0
    {
      gain := new real[2, 2]((i, c) => 1.0);
      wetAmount := new real[2](c => 0.0);
      vuMeterBuffer := new Vec2[3](k => Zero);
      vuMeterResults := new real[2](c => 0.0);
      var dry0 := new real[0];
      var dry1 := new real[0];
      var float0 := new real[0];
      var float1 := new real[0];
      dryBuffer := [dry0, dry1];
      floatToDouble := [float0, float1];
      latencySamples := 0;
    }

    /** `updateOversamplingLatency`. */
    method UpdateOversamplingLatency(snap: Snapshot, signal: Oversampler)
      modifies this`latencySamples
      ensures latencySamples == OversamplingLatency(snap.oversamplingOrder, snap.oversamplingLinearPhase, signal)
    {
      if snap.oversamplingLinearPhase {
        latencySamples := signal.latency(snap.oversamplingOrder, true);
      } else {
        latencySamples := 0;
      }
    }

    /** `reset`: zeroes the meters and sets every smoother to its target. */
    method Reset(snap: Snapshot, math: Math)
      requires Valid()
      modifies gain, wetAmount, vuMeterBuffer, vuMeterResults
      ensures Valid()
      ensures State() == ResetState(snap, math)
    {
      for k := 0 to 3
        invariant forall j :: 0 <= j < k ==> vuMeterBuffer[j] == Zero
      {
        vuMeterBuffer[k] := Zero;
      }
      ghost var target := ResetState(snap, math);
      for c := 0 to 2
        invariant forall c' :: 0 <= c' < c ==> wetAmount[c'] == target.wetAmount.At(c') && vuMeterResults[c'] == 0.0
        invariant forall c' :: 0 <= c' < c ==> gain[0, c'] == target.inputGain.At(c') && gain[1, c'] == target.outputGain.At(c')
        invariant forall j :: 0 <= j < 3 ==> vuMeterBuffer[j] == Zero
      {
        wetAmount[c] := WetAmountTarget(snap).At(c);
        for i := 0 to 2
          invariant forall c' :: 0 <= c' < c ==> wetAmount[c'] == target.wetAmount.At(c') && vuMeterResults[c'] == 0.0
          invariant forall c' :: 0 <= c' < c ==> gain[0, c'] == target.inputGain.At(c') && gain[1, c'] == target.outputGain.At(c')
          invariant wetAmount[c] == target.wetAmount.At(c)
          invariant i > 0 ==> vuMeterResults[c] == 0.0 && gain[0, c] == target.inputGain.At(c)
          invariant i > 1 ==> gain[1, c] == target.outputGain.At(c)
          invariant forall j :: 0 <= j < 3 ==> vuMeterBuffer[j] == Zero
        {
          gain[i, c] := GainTarget(math, snap, i).At(c);
          vuMeterResults[c] := 0.0;
        }
      }
    }

    /** `dryBuffer.setNumSamples`: grows the dry buffer when it is too short. */
    method SetDryNumSamples(n: nat)
      requires Valid()
      modifies this`dryBuffer
      ensures Valid() && n <= dryBuffer[0].Length
      ensures old(dryBuffer[0].Length) >= n ==> dryBuffer == old(dryBuffer)
      ensures dryBuffer == old(dryBuffer) || (fresh(dryBuffer[0]) && fresh(dryBuffer[1]))
    {
      if dryBuffer[0].Length < n {
        var dry0 := new real[n];
        var dry1 := new real[n];
        dryBuffer := [dry0, dry1];
      }
    }

    /** `prepareToPlay`: sizes the conversion and dry buffers for the largest
        block the host announces, then resets. */
    method PrepareToPlay(samplesPerBlock: nat, snap: Snapshot, math: Math)
      requires Valid()
      modifies this, gain, wetAmount, vuMeterBuffer, vuMeterResults
      ensures Valid()
      ensures floatToDouble[0].Length == samplesPerBlock && fresh(floatToDouble[0]) && fresh(floatToDouble[1])
      ensures samplesPerBlock <= dryBuffer[0].Length
      ensures dryBuffer == old(dryBuffer) || (fresh(dryBuffer[0]) && fresh(dryBuffer[1]))
      ensures State() == ResetState(snap, math)
      ensures latencySamples == old(latencySamples)
    {
      var float0 := new real[samplesPerBlock];
      var float1 := new real[samplesPerBlock];
      floatToDouble := [float0, float1];
      SetDryNumSamples(samplesPerBlock);
      Reset(snap, math);
    }

    /** The front of `processBlock`: the mid-side transform, the copy of the
        dry signal and the input gain, on channels 0 and 1 (`left`, `right`). */
    method FrontEnd(left: array<real>, right: array<real>, n: nat, bs: BlockSettings)
      requires Valid()
      requires left != right && n <= left.Length && n <= right.Length
      requires IsForeign(left) && IsForeign(right)
      modifies this`dryBuffer, dryBuffer[0], dryBuffer[1], left, right, gain
      ensures Valid() && n <= dryBuffer[0].Length && IsForeign(left) && IsForeign(right)
      ensures dryBuffer == old(dryBuffer) || (fresh(dryBuffer[0]) && fresh(dryBuffer[1]))
      ensures DryFrames(n) ==
        (if bs.midSide then MidSideFrames(old(Frames(left, right, n))) else old(Frames(left, right, n)))
      ensures Frames(left, right, n) == Ramped(DryFrames(n), old(GainRow(gain, 0)), bs.inputGainTarget, bs.automationAlpha)
      ensures left[n..] == old(left[n..]) && right[n..] == old(right[n..])
      ensures GainRow(gain, 0) == IterateV(old(GainRow(gain, 0)), bs.inputGainTarget, bs.automationAlpha, n)
      ensures GainRow(gain, 1) == old(GainRow(gain, 1))
    {
      if bs.midSide {
        LeftRightToMidSide(left, right, n);
      }
      ghost var dry := Frames(left, right, n);
      SetDryNumSamples(n);
      var dry0, dry1 := dryBuffer[0], dryBuffer[1];
      CopyChannel(left, dry0, n);
      CopyChannel(right, dry1, n);
      assert DryFrames(n) == dry by {
        forall i | 0 <= i < n
          ensures DryFrames(n)[i] == dry[i]
        {
          assert dry0[i] == dry0[..n][i];
          assert dry1[i] == dry1[..n][i];
        }
      }
      ApplyGain(left, right, bs.inputGainTarget, gain, 0, bs.automationAlpha, n);
    }

    /** The dry/wet stage of `processBlock`: one of the two loops (or none when
        bypassing) and the store-back of the smoothers and meters.
        `wetData` holds the wet frames and receives the blended ones. */
    method DryWet(wetData: array<Vec2>, dryData: seq<Vec2>, bs: BlockSettings, math: Math) returns (frames: seq<Vec2>)
      requires Shaped() && |dryData| == wetData.Length && wetData != vuMeterBuffer
      modifies wetData, gain, wetAmount, vuMeterBuffer
      ensures frames == Mixdown(old(State()), old(wetData[..]), dryData, bs, math).0
      ensures State() == Mixdown(old(State()), old(wetData[..]), dryData, bs, math).1.(vuMeterResults := old(State()).vuMeterResults)
    {
      var current := Vec2(wetAmount[0], wetAmount[1]);
      var isWetPassNeeded := IsWetPassNeeded(bs.wetAmountTarget, current);
      var isBypassing := !isWetPassNeeded && current.c0 == 0.0;
      var outputGain := GainRow(gain, 1);
      var vuMeterDry, vuMeterWet := vuMeterBuffer[0], vuMeterBuffer[1];
      if isWetPassNeeded {
        var amount;
        amount, outputGain, vuMeterDry, vuMeterWet := WetPass(wetData, dryData, current, bs.wetAmountTarget,
          outputGain, bs.outputGainTarget, bs.automationAlpha, bs.vuMeterAlpha, vuMeterDry, vuMeterWet);
        wetAmount[0], wetAmount[1] := amount.c0, amount.c1;
      } else if !isBypassing {
        outputGain, vuMeterDry, vuMeterWet := OutputGainPass(wetData, dryData,
          outputGain, bs.outputGainTarget, bs.automationAlpha, bs.vuMeterAlpha, vuMeterDry, vuMeterWet);
      }
      if isBypassing {
        vuMeterBuffer[2] := Zero;
        frames := dryData;
      } else {
        gain[1, 0], gain[1, 1] := outputGain.c0, outputGain.c1;
        vuMeterBuffer[0] := vuMeterDry;
        vuMeterBuffer[1] := vuMeterWet;
        vuMeterBuffer[2] := MeterReading(math, vuMeterWet, vuMeterDry, bs.inputGainTarget, bs.outputGainTarget);
        frames := wetData[..];
      }
    }

    /** The end of `processBlock` past the early return: the dry/wet stage on
        the resampled wet and dry frames, the copy back to channels 0 and 1
        (`left`, `right`) with the inverse mid-side transform, and the
        publication of the meter reading. */
    method MixAndStore(left: array<real>, right: array<real>, wet: seq<Vec2>, dry: seq<Vec2>,
                       bs: BlockSettings, math: Math)
      requires Shaped()
      requires left != right && |wet| <= left.Length && |wet| <= right.Length && |dry| == |wet|
      requires IsNotMemberArray(left) && IsNotMemberArray(right)
      modifies left, right, gain, wetAmount, vuMeterBuffer, vuMeterResults
      ensures var mix := Mixdown(old(State()), wet, dry, bs, math);
        && State() == mix.1
        && Frames(left, right, |wet|) == (if bs.midSide then LeftRightFrames(mix.0) else mix.0)
      ensures left[|wet|..] == old(left[|wet|..]) && right[|wet|..] == old(right[|wet|..])
    {
      var wetData := NewFrameBuffer(wet);
      var frames := DryWet(wetData, dry, bs, math);
      StoreFrames(frames, left, right, bs.midSide);
      vuMeterResults[0], vuMeterResults[1] := vuMeterBuffer[2].c0, vuMeterBuffer[2].c1;
    }

    /** The back of `processBlock`, after the input gain: channels 0 and 1
        (`left`, `right`) hold the gained frames and the dry buffer the dry
        frames. On the early return the two output channels are cleared and
        the state is left alone. */
    method BackEnd(left: array<real>, right: array<real>, n: nat, bs: BlockSettings, math: Math,
                   signal: Oversampler, dryOversampler: Oversampler, shaper: Waveshaper)
      requires Shaped() && IsOwnBuffer(dryBuffer)
      requires left != right && n <= left.Length && n <= right.Length
      requires n <= dryBuffer[0].Length && IsForeign(left) && IsForeign(right)
      requires signal.Valid() && dryOversampler.Valid() && shaper.Valid()
      modifies left, right, gain, wetAmount, vuMeterBuffer, vuMeterResults
      ensures var out := BlockTail(old(State()), old(Frames(left, right, n)), DryFrames(n),
                                   bs, signal, dryOversampler, shaper, math);
        && State() == out.state
        && (out.Silenced? ==> forall i :: 0 <= i < n ==> left[i] == 0.0 && right[i] == 0.0)
        && (out.Processed? ==> Frames(left, right, n) == out.frames)
      ensures left[n..] == old(left[n..]) && right[n..] == old(right[n..])
      ensures DryFrames(n) == old(DryFrames(n))
    {
      ghost var st := State();
      var gained := Frames(left, right, n);
      var dry := Frames(dryBuffer[0], dryBuffer[1], n);
      var isBypassing := IsBypassing(bs.wetAmountTarget, Vec2(wetAmount[0], wetAmount[1]));
      var resampled := Resample(gained, dry, bs, isBypassing, signal, dryOversampler, shaper);
      if resampled.Priming? {
        ClearChannel(left, n);
        ClearChannel(right, n);
        return;
      }
      MixAndStore(left, right, resampled.wet, resampled.dry, bs, math);
      BlockTailResampled(st, gained, dry, bs, signal, dryOversampler, shaper, math);
      assert DryFrames(n) == dry;
    }

    /** `processBlock` on its two channels `left` and `right` for the block's
        settings `bs`: the new state, the dry buffer and the two channels are
        those `ProcessBlockSpec` gives for the state and the frames before
        the call, the channels cleared on the early return. */
    method ProcessStereo(left: array<real>, right: array<real>, n: nat, bs: BlockSettings, math: Math,
                         signal: Oversampler, dryOversampler: Oversampler, shaper: Waveshaper)
      requires Valid()
      requires left != right && n <= left.Length && n <= right.Length
      requires IsForeign(left) && IsForeign(right)
      requires signal.Valid() && dryOversampler.Valid() && shaper.Valid()
      modifies this`dryBuffer, dryBuffer[0], dryBuffer[1], left, right, gain, wetAmount, vuMeterBuffer, vuMeterResults
      ensures Valid() && n <= dryBuffer[0].Length && floatToDouble == old(floatToDouble)
      ensures dryBuffer == old(dryBuffer) || (fresh(dryBuffer[0]) && fresh(dryBuffer[1]))
      ensures var out := ProcessBlockSpec(old(State()), old(Frames(left, right, n)), bs, signal, dryOversampler, shaper, math);
        && State() == out.state
        && DryFrames(n) == out.dry
        && (out.Silenced? ==> forall i :: 0 <= i < n ==> left[i] == 0.0 && right[i] == 0.0)
        && (out.Processed? ==> Frames(left, right, n) == out.frames)
      ensures left[n..] == old(left[n..]) && right[n..] == old(right[n..])
    {
      ghost var st0 := State();
      ghost var input := Frames(left, right, n);
      FrontEnd(left, right, n, bs);
      ghost var dry := DryFrames(n);
      ghost var gained := Frames(left, right, n);
      ghost var st1 := st0.(inputGain := IterateV(st0.inputGain, bs.inputGainTarget, bs.automationAlpha, n));
      assert State() == st1;
      assert BlockTail(st1, gained, dry, bs, signal, dryOversampler, shaper, math)
          == ProcessBlockSpec(st0, input, bs, signal, dryOversampler, shaper, math);
      BackEnd(left, right, n, bs, math, signal, dryOversampler, shaper);
      assert DryFrames(n) == dry;
    }

    /** The double-precision `processBlock` on the two channels of the only
        layout the processor accepts: the block's settings are read from the
        parameters and the host, then `ProcessStereo` runs on channels 0 and 1. */
    method ProcessBlock(buffer: seq<array<real>>, n: nat, snap: Snapshot, host: Host, math: Math,
                        signal: Oversampler, dryOversampler: Oversampler, shaper: Waveshaper)
      requires Valid() && IsBusesLayoutSupported(host.numInputChannels, host.numOutputChannels)
      requires |buffer| == 2 && IsAudioBuffer(buffer, n) && IsForeign(buffer[0]) && IsForeign(buffer[1])
      requires signal.Valid() && dryOversampler.Valid() && shaper.Valid()
      modifies this`dryBuffer, dryBuffer[0], dryBuffer[1], buffer[0], buffer[1], gain, wetAmount, vuMeterBuffer, vuMeterResults
      ensures Valid() && n <= dryBuffer[0].Length && floatToDouble == old(floatToDouble)
      ensures dryBuffer == old(dryBuffer) || (fresh(dryBuffer[0]) && fresh(dryBuffer[1]))
      ensures var out := ProcessBlockSpec(old(State()), old(Frames(buffer[0], buffer[1], n)),
                                          BlockSettingsOf(snap, host, math), signal, dryOversampler, shaper, math);
        && State() == out.state
        && DryFrames(n) == out.dry
        && (out.Silenced? ==> forall c, i :: 0 <= c < host.numOutputChannels && 0 <= i < n ==> buffer[c][i] == 0.0)
        && (out.Processed? ==> Frames(buffer[0], buffer[1], n) == out.frames)
    {
      var bs := BlockSettingsOf(snap, host, math);
      ProcessStereo(buffer[0], buffer[1], n, bs, math, signal, dryOversampler, shaper);
    }

    /** `floatToDouble.setSize(2, n)`: new channels only when the length changes. */
    method SetFloatNumSamples(n: nat)
      requires Valid()
      modifies this`floatToDouble
      ensures Valid() && floatToDouble[0].Length == n
      ensures old(floatToDouble[0].Length) == n ==> floatToDouble == old(floatToDouble)
      ensures floatToDouble == old(floatToDouble) || (fresh(floatToDouble[0]) && fresh(floatToDouble[1]))
    {
      if floatToDouble[0].Length != n {
        var float0 := new real[n];
        var float1 := new real[n];
        floatToDouble := [float0, float1];
      }
    }

    /** `a` is a channel of a caller's buffer: not one of the processor's arrays. */
    predicate IsExternal(a: array<real>)
      requires |dryBuffer| == 2 && |floatToDouble| == 2
      reads this
    {
      IsForeign(a) && a != floatToDouble[0] && a != floatToDouble[1]
    }

    /** Resizes the double buffer to `n` samples and copies the first
        `numChannels` channels of `buffer` into it. */
    method CopyIn(buffer: seq<array<real>>, numChannels: nat, n: nat)
      requires Valid() && |buffer| == 2 && IsAudioBuffer(buffer, n) && numChannels <= 2
      requires IsExternal(buffer[0]) && IsExternal(buffer[1])
      modifies this`floatToDouble, floatToDouble[0], floatToDouble[1]
      ensures Valid() && floatToDouble[0].Length == n && State() == old(State())
      ensures floatToDouble == old(floatToDouble) || (fresh(floatToDouble[0]) && fresh(floatToDouble[1]))
      ensures forall c :: 0 <= c < numChannels ==> floatToDouble[c][..] == buffer[c][..]
      ensures numChannels == 2 ==> Frames(floatToDouble[0], floatToDouble[1], n) == old(Frames(buffer[0], buffer[1], n))
    {
      SetFloatNumSamples(n);
      for c := 0 to numChannels
        invariant Valid() && floatToDouble[0].Length == n
        invariant floatToDouble == old(floatToDouble) || (fresh(floatToDouble[0]) && fresh(floatToDouble[1]))
        invariant forall c' :: 0 <= c' < c ==> floatToDouble[c'][..] == buffer[c'][..]
      {
        CopyChannel(buffer[c], floatToDouble[c], n);
        assert floatToDouble[c][..] == floatToDouble[c][..n];
        assert buffer[c][..] == buffer[c][..n];
      }
    }

    /** Copies the first `numChannels` channels of the double buffer back into `buffer`. */
    method CopyOut(buffer: seq<array<real>>, numChannels: nat, n: nat)
      requires Valid() && |buffer| == 2 && IsAudioBuffer(buffer, n) && numChannels <= 2
      requires floatToDouble[0].Length == n
      requires IsNotMemberArray(buffer[0]) && buffer[0] != floatToDouble[0] && buffer[0] != floatToDouble[1]
      requires IsNotMemberArray(buffer[1]) && buffer[1] != floatToDouble[0] && buffer[1] != floatToDouble[1]
      modifies buffer[0], buffer[1]
      ensures forall c, i :: 0 <= c < numChannels && 0 <= i < n ==> buffer[c][i] == old(floatToDouble[c][i])
      ensures numChannels == 2 ==> Frames(buffer[0], buffer[1], n) == old(Frames(floatToDouble[0], floatToDouble[1], n))
      ensures forall c :: numChannels <= c < 2 ==> unchanged(buffer[c])
      ensures Valid() && State() == old(State())
    {
      for c := 0 to numChannels
        invariant forall c' :: 0 <= c' < c ==> buffer[c'][..] == floatToDouble[c'][..]
        invariant forall c' :: c <= c' < 2 ==> unchanged(buffer[c'])
      {
        CopyChannel(floatToDouble[c], buffer[c], n);
        assert floatToDouble[c][..] == floatToDouble[c][..n];
        assert buffer[c][..] == buffer[c][..n];
      }
      assert forall c, i :: 0 <= c < numChannels && 0 <= i < n ==> buffer[c][i] == buffer[c][..][i];
    }

    /** The single-precision `processBlock`: resizes the double buffer to the
        block's length, copies the input channels in, runs the double-precision
        block on it and copies the input channels back, so that the block's
        effect is the double-precision one. */
    method ProcessBlockFloat(buffer: seq<array<real>>, n: nat, snap: Snapshot, host: Host, math: Math,
                             signal: Oversampler, dryOversampler: Oversampler, shaper: Waveshaper)
      requires Valid() && IsBusesLayoutSupported(host.numInputChannels, host.numOutputChannels)
      requires |buffer| == 2 && IsAudioBuffer(buffer, n) && IsExternal(buffer[0]) && IsExternal(buffer[1])
      requires signal.Valid() && dryOversampler.Valid() && shaper.Valid()
      modifies this`floatToDouble, this`dryBuffer, buffer[0], buffer[1], floatToDouble[0], floatToDouble[1]
      modifies dryBuffer[0], dryBuffer[1], gain, wetAmount, vuMeterBuffer, vuMeterResults
      ensures Valid() && floatToDouble[0].Length == n
      ensures dryBuffer == old(dryBuffer) || (fresh(dryBuffer[0]) && fresh(dryBuffer[1]))
      ensures floatToDouble == old(floatToDouble) || (fresh(floatToDouble[0]) && fresh(floatToDouble[1]))
      ensures var out := ProcessBlockSpec(old(State()), old(Frames(buffer[0], buffer[1], n)),
                                          BlockSettingsOf(snap, host, math), signal, dryOversampler, shaper, math);
        && State() == out.state
        && (out.Silenced? ==> forall c, i :: 0 <= c < host.numOutputChannels && 0 <= i < n ==> buffer[c][i] == 0.0)
        && (out.Processed? ==> Frames(buffer[0], buffer[1], n) == out.frames)
    {
      var numInputChannels := host.numInputChannels;
      CopyIn(buffer, numInputChannels, n);
      ProcessBlock(floatToDouble, n, snap, host, math, signal, dryOversampler, shaper);
      CopyOut(buffer, numInputChannels, n);
    }
  }
}

=== FILE: processing.dfy ===
/** The per-block audio pipeline: the static helpers (mid-side transforms,
    smoothed gain, dB conversion), the decisions taken at the top of a block,
    the dry/wet and metering loops, and a value-level description of a whole
    block that the processor's `ProcessBlock` is proved to implement. */
module Processing {
  import opened Lanes
  import opened Collaborators
  import opened Parameters

  // ---------------------------------------------------------------- constants

  /** ln 10, as written in the source. */
  const Ln10: real := 2.30258509299404568402

  /** Factor from decibels to the natural-log domain: linear = exp(DbToLin * dB). */
  const DbToLin: real := Ln10 / 20.0

  /** `MathConstants<double>::twoPi`. */
  const TwoPi: real := 6.28318530717958647692

  /** Corner frequency of the level meter's envelope followers, in Hz. */
  const VuMeterFrequency: real := 10.0

  /** `1 << k`, as a natural number. */
  function Pow2(k: nat): (r: nat)
    ensures r >= 1
    ensures r as real == Power(2.0, k)
  {
    if k == 0 then 1 else 2 * Pow2(k - 1)
  }

  /** `std::numeric_limits<float>::min()`, the smallest normal float, 2^-126. */
  const FltMin: real := 1.0 / (Pow2(126) as real)

  // ------------------------------------------------------- buffers as frames

  /** An audio buffer as the processing code sees it: one sample array per
      channel, pairwise distinct, each holding the block's `n` samples. */
  predicate IsAudioBuffer(channels: seq<array<real>>, n: nat) {
    && (forall c :: 0 <= c < |channels| ==> channels[c].Length == n)
    && (forall c, d :: 0 <= c < d < |channels| ==> channels[c] != channels[d])
  }

  /** The first `n` frames of a pair of channels. */
  function Frames(left: array<real>, right: array<real>, n: nat): (xs: seq<Vec2>)
    requires n <= left.Length && n <= right.Length
    reads left, right
    ensures |xs| == n
  {
    Zip(left[..n], right[..n])
  }

  /** Pairs two equally long lanes into frames. */
  function Zip(l: seq<real>, r: seq<real>): (xs: seq<Vec2>)
    requires |l| == |r|
    ensures |xs| == |l|
    ensures forall i :: 0 <= i < |l| ==> xs[i] == Vec2(l[i], r[i])
  {
    seq(|l|, i requires 0 <= i < |l| => Vec2(l[i], r[i]))
  }

  /** `deinterleave`: writes `frames` into two channels from sample 0 on. */
  method Deinterleave(frames: seq<Vec2>, left: array<real>, right: array<real>)
    requires left != right && |frames| <= left.Length && |frames| <= right.Length
    modifies left, right
    ensures Frames(left, right, |frames|) == frames
    ensures left[|frames|..] == old(left[|frames|..]) && right[|frames|..] == old(right[|frames|..])
  {
    for i := 0 to |frames|
      invariant forall j :: 0 <= j < i ==> left[j] == frames[j].c0 && right[j] == frames[j].c1
      invariant left[i..] == old(left[i..]) && right[i..] == old(right[i..])
    {
      left[i] := frames[i].c0;
      right[i] := frames[i].c1;
      assert left[i + 1..] == old(left[i + 1..]);
      assert right[i + 1..] == old(right[i + 1..]);
    }
  }

  /** `std::copy` of the first `n` samples of one channel into another. */
  method CopyChannel(src: array<real>, dst: array<real>, n: nat)
    requires src != dst && n <= src.Length && n <= dst.Length
    modifies dst
    ensures dst[..n] == src[..n]
    ensures dst[n..] == old(dst[n..])
  {
    for i := 0 to n
      invariant dst[..i] == src[..i]
      invariant dst[i..] == old(dst[i..])
    {
      dst[i] := src[i];
      assert dst[i + 1..] == old(dst[i + 1..]);
    }
  }

  /** `buffer.clear(c, 0, n)`: zeroes the first `n` samples of a channel. */
  method ClearChannel(channel: array<real>, n: nat)
    requires n <= channel.Length
    modifies channel
    ensures forall i :: 0 <= i < n ==> channel[i] == 0.0
    ensures channel[n..] == old(channel[n..])
  {
    for i := 0 to n
      invariant forall j :: 0 <= j < i ==> channel[j] == 0.0
      invariant channel[i..] == old(channel[i..])
    {
      channel[i] := 0.0;
      assert channel[i + 1..] == old(channel[i + 1..]);
    }
  }

  // ------------------------------------------------------------------ mid-side

  /** One frame from left/right to mid/side. */
  function MidSide(v: Vec2): Vec2 {
    Vec2(0.5 * (v.c0 + v.c1), 0.5 * (v.c0 - v.c1))
  }

  /** One frame from mid/side back to left/right. */
  function LeftRight(v: Vec2): Vec2 {
    Vec2(v.c0 + v.c1, v.c0 - v.c1)
  }

  function MidSideFrames(xs: seq<Vec2>): (ys: seq<Vec2>)
    ensures |ys| == |xs|
  {
    seq(|xs|, i requires 0 <= i < |xs| => MidSide(xs[i]))
  }

  function LeftRightFrames(xs: seq<Vec2>): (ys: seq<Vec2>)
    ensures |ys| == |xs|
  {
    seq(|xs|, i requires 0 <= i < |xs| => LeftRight(xs[i]))
  }

  /** The two transforms are inverse to each other, in both orders. */
  lemma MidSideRoundTrip(xs: seq<Vec2>)
    ensures LeftRightFrames(MidSideFrames(xs)) == xs
    ensures MidSideFrames(LeftRightFrames(xs)) == xs
  {
    assert forall i :: 0 <= i < |xs| ==> LeftRightFrames(MidSideFrames(xs))[i] == xs[i];
    assert forall i :: 0 <= i < |xs| ==> MidSideFrames(LeftRightFrames(xs))[i] == xs[i];
  }

  /** `leftRightToMidSide`: rewrites the first `n` samples of the two
      channels in place and touches nothing else. */
  method LeftRightToMidSide(left: array<real>, right: array<real>, n: nat)
    requires left != right && n <= left.Length && n <= right.Length
    modifies left, right
    ensures Frames(left, right, n) == MidSideFrames(old(Frames(left, right, n)))
    ensures left[n..] == old(left[n..]) && right[n..] == old(right[n..])
  {
    ghost var before := Frames(left, right, n);
    for i := 0 to n
      invariant forall j :: 0 <= j < i ==> Vec2(left[j], right[j]) == MidSide(before[j])
      invariant left[i..] == old(left[i..]) && right[i..] == old(right[i..])
    {
      assert Vec2(left[i], right[i]) == before[i];
      var m := 0.5 * (left[i] + right[i]);
      var s := 0.5 * (left[i] - right[i]);
      left[i] := m;
      right[i] := s;
      assert left[i + 1..] == old(left[i + 1..]);
      assert right[i + 1..] == old(right[i + 1..]);
    }
  }

  /** `midSideToLeftRight`: the inverse rewrite, with the same footprint. */
  method MidSideToLeftRight(left: array<real>, right: array<real>, n: nat)
    requires left != right && n <= left.Length && n <= right.Length
    modifies left, right
    ensures Frames(left, right, n) == LeftRightFrames(old(Frames(left, right, n)))
    ensures left[n..] == old(left[n..]) && right[n..] == old(right[n..])
  {
    ghost var before := Frames(left, right, n);
    for i := 0 to n
      invariant forall j :: 0 <= j < i ==> Vec2(left[j], right[j]) == LeftRight(before[j])
      invariant left[i..] == old(left[i..]) && right[i..] == old(right[i..])
    {
      assert Vec2(left[i], right[i]) == before[i];
      var l := left[i] + right[i];
      var r := left[i] - right[i];
      left[i] := l;
      right[i] := r;
      assert left[i + 1..] == old(left[i + 1..]);
      assert right[i + 1..] == old(right[i + 1..]);
    }
  }

  /** A fresh interleaved buffer holding `frames`. It stands for `wetOutput`,
      the oversampler's interleaved output (its downsampled output when
      oversampling, otherwise the buffer the block was interleaved into),
      which the dry/wet stage rewrites in place. */
  method NewFrameBuffer(frames: seq<Vec2>) returns (data: array<Vec2>)
    ensures fresh(data) && data[..] == frames
  {
    data := new Vec2[|frames|](i requires 0 <= i < |frames| => frames[i]);
  }

  /** The end of the block: the processed frames are copied back to the two
      channels, then turned back from mid-side to left-right when enabled. */
  method StoreFrames(frames: seq<Vec2>, left: array<real>, right: array<real>, midSide: bool)
    requires left != right && |frames| <= left.Length && |frames| <= right.Length
    modifies left, right
    ensures Frames(left, right, |frames|) == if midSide then LeftRightFrames(frames) else frames
    ensures left[|frames|..] == old(left[|frames|..]) && right[|frames|..] == old(right[|frames|..])
  {
    Deinterleave(frames, left, right);
    if midSide {
      MidSideToLeftRight(left, right, |frames|);
    }
  }

  // ---------------------------------------------------------------- smoothing

  /** One step of the one-pole smoother towards `target`. */
  function Smooth(state: real, target: real, alpha: real): real {
    target + alpha * (state - target)
  }

  /** The `k`-th iterate of `Smooth` from `state`. */
  function Iterate(state: real, target: real, alpha: real, k: nat): real {
    if k == 0 then state else Smooth(Iterate(state, target, alpha, k - 1), target, alpha)
  }

  /** `Iterate` on both lanes. */
  function IterateV(state: Vec2, target: Vec2, alpha: real, k: nat): Vec2 {
    Vec2(Iterate(state.c0, target.c0, alpha, k), Iterate(state.c1, target.c1, alpha, k))
  }

  /** `Smooth` on both lanes: the vectorised `alpha * (state - target) + target`. */
  function SmoothV(state: Vec2, target: Vec2, alpha: real): Vec2 {
    Vec2(Smooth(state.c0, target.c0, alpha), Smooth(state.c1, target.c1, alpha))
  }

  lemma MulNonNegative(x: real, y: real)
    requires x >= 0.0 && y >= 0.0
    ensures x * y >= 0.0
  {
  }

  /** A factor in [0, 1] scales `d` to a value between 0 and `d`. */
  lemma ScaledBetween(a: real, d: real)
    requires 0.0 <= a <= 1.0
    ensures 0.0 <= d ==> 0.0 <= a * d <= d
    ensures d <= 0.0 ==> d <= a * d <= 0.0
  {
    if 0.0 <= d {
      MulNonNegative(a, d);
      MulNonNegative(1.0 - a, d);
      assert (1.0 - a) * d == d - a * d;
    } else {
      MulNonNegative(a, -d);
      MulNonNegative(1.0 - a, -d);
      assert a * (-d) == -(a * d);
      assert (1.0 - a) * (-d) == a * d - d;
    }
  }

  function Power(a: real, k: nat): real {
    if k == 0 then 1.0 else a * Power(a, k - 1)
  }

  /** After `k` steps the distance to the target has shrunk by `alpha^k`. */
  lemma {:induction false} IterateClosedForm(state: real, target: real, alpha: real, k: nat)
    ensures Iterate(state, target, alpha, k) == target + Power(alpha, k) * (state - target)
  {
    if k > 0 {
      IterateClosedForm(state, target, alpha, k - 1);
      assert alpha * (Power(alpha, k - 1) * (state - target)) == (alpha * Power(alpha, k - 1)) * (state - target);
    }
  }

  /** A smoother that has reached its target stays there. */
  lemma {:induction false} IterateFixedPoint(target: real, alpha: real, k: nat)
    ensures Iterate(target, target, alpha, k) == target
  {
    if k > 0 {
      IterateFixedPoint(target, alpha, k - 1);
    }
  }

  /** With `alpha == 0` the smoother jumps to the target in one step. */
  lemma {:induction false} IterateInstant(state: real, target: real, k: nat)
    requires k >= 1
    ensures Iterate(state, target, 0.0, k) == target
  {
    if k > 1 {
      IterateInstant(state, target, k - 1);
    }
  }

  /** For `alpha` in [0, 1] one smoothing step lands between the state and the target. */
  lemma SmoothBetween(state: real, target: real, alpha: real)
    requires 0.0 <= alpha <= 1.0
    ensures state <= target ==> state <= Smooth(state, target, alpha) <= target
    ensures target <= state ==> target <= Smooth(state, target, alpha) <= state
  {
    var d := state - target;
    ScaledBetween(alpha, d);
    assert Smooth(state, target, alpha) == target + alpha * d;
  }

  /** For `alpha` in [0, 1] every iterate lies between the start and the target. */
  lemma {:induction false} IterateBetween(state: real, target: real, alpha: real, k: nat)
    requires 0.0 <= alpha <= 1.0
    ensures state <= target ==> state <= Iterate(state, target, alpha, k) <= target
    ensures target <= state ==> target <= Iterate(state, target, alpha, k) <= state
  {
    if k > 0 {
      IterateBetween(state, target, alpha, k - 1);
      SmoothBetween(Iterate(state, target, alpha, k - 1), target, alpha);
    }
  }

  /** Frame `i` of `xs` scaled by the `(i+1)`-th iterate of a gain smoother. */
  function Ramped(xs: seq<Vec2>, gain: Vec2, gainTarget: Vec2, alpha: real): (ys: seq<Vec2>)
    ensures |ys| == |xs|
  {
    seq(|xs|, i requires 0 <= i < |xs| => Mul(IterateV(gain, gainTarget, alpha, i + 1), xs[i]))
  }

  /** A settled gain smoother scales every frame by exactly the target gain. */
  lemma SettledRamp(xs: seq<Vec2>, gainTarget: Vec2, alpha: real)
    ensures Ramped(xs, gainTarget, gainTarget, alpha) == seq(|xs|, i requires 0 <= i < |xs| => Mul(gainTarget, xs[i]))
  {
    forall i | 0 <= i < |xs|
      ensures Ramped(xs, gainTarget, gainTarget, alpha)[i] == Mul(gainTarget, xs[i])
    {
      IterateFixedPoint(gainTarget.c0, alpha, i + 1);
      IterateFixedPoint(gainTarget.c1, alpha, i + 1);
    }
  }

  /** With `alpha == 0` every frame is scaled by exactly the target gain, and
      after at least one frame the state equals the target. */
  lemma InstantRamp(xs: seq<Vec2>, gain: Vec2, gainTarget: Vec2)
    ensures Ramped(xs, gain, gainTarget, 0.0) == seq(|xs|, i requires 0 <= i < |xs| => Mul(gainTarget, xs[i]))
    ensures |xs| > 0 ==> IterateV(gain, gainTarget, 0.0, |xs|) == gainTarget
  {
    forall i | 0 <= i < |xs|
      ensures Ramped(xs, gain, gainTarget, 0.0)[i] == Mul(gainTarget, xs[i])
    {
      IterateInstant(gain.c0, gainTarget.c0, i + 1);
      IterateInstant(gain.c1, gainTarget.c1, i + 1);
    }
    if |xs| > 0 {
      IterateInstant(gain.c0, gainTarget.c0, |xs|);
      IterateInstant(gain.c1, gainTarget.c1, |xs|);
    }
  }

  /** One lane of `Ramped`. */
  function RampedLane(xs: seq<real>, gain: real, gainTarget: real, alpha: real): (ys: seq<real>)
    ensures |ys| == |xs|
  {
    seq(|xs|, i requires 0 <= i < |xs| => Iterate(gain, gainTarget, alpha, i + 1) * xs[i])
  }

  /** Frames whose lanes are the ramped lanes of `before` are the ramped frames. */
  lemma RampedByLanes(before: seq<Vec2>, left: seq<real>, right: seq<real>, gain: Vec2, gainTarget: Vec2, alpha: real, after: seq<Vec2>)
    requires |left| == |right| == |before| == |after|
    requires forall i :: 0 <= i < |before| ==> before[i] == Vec2(left[i], right[i])
    requires forall i :: 0 <= i < |after| ==>
      after[i] == Vec2(RampedLane(left, gain.c0, gainTarget.c0, alpha)[i], RampedLane(right, gain.c1, gainTarget.c1, alpha)[i])
    ensures after == Ramped(before, gain, gainTarget, alpha)
  {
    var ramped := Ramped(before, gain, gainTarget, alpha);
    forall i | 0 <= i < |after|
      ensures after[i] == ramped[i]
    {
      var g := IterateV(gain, gainTarget, alpha, i + 1);
      assert ramped[i] == Vec2(g.c0 * before[i].c0, g.c1 * before[i].c1);
      assert RampedLane(left, gain.c0, gainTarget.c0, alpha)[i] == g.c0 * left[i];
      assert RampedLane(right, gain.c1, gainTarget.c1, alpha)[i] == g.c1 * right[i];
    }
  }

  /** The inner loop of `applyGain` for channel `c`, whose samples are
      `channel` and whose smoother state is `gainState[row, c]`. */
  method ApplyGainToChannel(channel: array<real>, c: nat, gainTarget: real, gainState: array2<real>, row: nat, alpha: real, n: nat)
    requires n <= channel.Length
    requires row < gainState.Length0 && c < gainState.Length1
    modifies channel, gainState
    ensures channel[..n] == RampedLane(old(channel[..n]), old(gainState[row, c]), gainTarget, alpha)
    ensures channel[n..] == old(channel[n..])
    ensures gainState[row, c] == Iterate(old(gainState[row, c]), gainTarget, alpha, n)
    ensures forall r, c' :: 0 <= r < gainState.Length0 && 0 <= c' < gainState.Length1 && (r != row || c' != c) ==>
      gainState[r, c'] == old(gainState[r, c'])
  {
    ghost var start := gainState[row, c];
    ghost var ramped := RampedLane(channel[..n], start, gainTarget, alpha);
    for i := 0 to n
      invariant gainState[row, c] == Iterate(start, gainTarget, alpha, i)
      invariant forall j :: 0 <= j < i ==> channel[j] == ramped[j]
      invariant forall j :: i <= j < channel.Length ==> channel[j] == old(channel[j])
      invariant forall r, c' :: 0 <= r < gainState.Length0 && 0 <= c' < gainState.Length1 && (r != row || c' != c) ==>
        gainState[r, c'] == old(gainState[r, c'])
    {
      ghost var x := channel[i];
      gainState[row, c] := Smooth(gainState[row, c], gainTarget, alpha);
      channel[i] := channel[i] * gainState[row, c];
      assert ramped[i] == Iterate(start, gainTarget, alpha, i + 1) * x;
    }
    assert channel[..n] == ramped;
    assert channel[n..] == old(channel[n..]);
  }

  /** Lanes `row` of a gain-state array. */
  function GainRow(gainState: array2<real>, row: nat): Vec2
    requires row < gainState.Length0 && 2 <= gainState.Length1
    reads gainState
  {
    Vec2(gainState[row, 0], gainState[row, 1])
  }

  /** `applyGain`: sample `i` of each channel is multiplied by the `(i+1)`-th
      smoother iterate, and the state, row `row` of `gainState`, ends at the
      `n`-th iterate. */
  method ApplyGain(left: array<real>, right: array<real>, gainTarget: Vec2, gainState: array2<real>, row: nat, alpha: real, n: nat)
    requires left != right && n <= left.Length && n <= right.Length
    requires row < gainState.Length0 && 2 <= gainState.Length1
    modifies left, right, gainState
    ensures Frames(left, right, n) == Ramped(old(Frames(left, right, n)), old(GainRow(gainState, row)), gainTarget, alpha)
    ensures left[n..] == old(left[n..]) && right[n..] == old(right[n..])
    ensures GainRow(gainState, row) == IterateV(old(GainRow(gainState, row)), gainTarget, alpha, n)
    ensures forall r, c :: 0 <= r < gainState.Length0 && 0 <= c < gainState.Length1 && (r != row || c >= 2) ==>
      gainState[r, c] == old(gainState[r, c])
  {
    ghost var before := Frames(left, right, n);
    ghost var gain := GainRow(gainState, row);
    ghost var left0, right0 := left[..n], right[..n];
    ApplyGainToChannel(left, 0, gainTarget.c0, gainState, row, alpha, n);
    ghost var left1 := RampedLane(left0, gain.c0, gainTarget.c0, alpha);
    assert left[..n] == left1;
    assert gainState[row, 1] == gain.c1;
    ApplyGainToChannel(right, 1, gainTarget.c1, gainState, row, alpha, n);
    ghost var right1 := RampedLane(right0, gain.c1, gainTarget.c1, alpha);
    assert right[..n] == right1;
    assert left[..n] == left1;
    RampedByLanes(before, left0, right0, gain, gainTarget, alpha, Frames(left, right, n));
  }

  // ------------------------------------------------------------ coefficients

  /** The one-pole coefficient for a smoothing time (in seconds) at a sample
      period `invSampleRate`: 0 when the smoothing time is 0, otherwise
      `exp(-2π · invSampleRate / smoothingTime)`, which is positive. */
  function SmoothingAlpha(math: Math, smoothingTime: real, invSampleRate: real): (alpha: real)
    ensures smoothingTime == 0.0 ==> alpha == 0.0
    ensures smoothingTime != 0.0 ==> alpha > 0.0
  {
    if smoothingTime == 0.0 then 0.0 else math.exp(-TwoPi * invSampleRate / smoothingTime)
  }

  /** The oversampling factor `1 << order`. */
  function OversamplingRate(order: nat): (rate: real)
    ensures rate >= 1.0
  {
    Pow2(order) as real
  }

  /** The six oversampling choices are the factors 1, 2, 4, 8, 16 and 32. */
  lemma OversamplingChoiceRates()
    ensures forall k :: 0 <= k < |ParameterLayout().oversamplingOrder.choices| ==>
      OversamplingRate(k) == [1.0, 2.0, 4.0, 8.0, 16.0, 32.0][k]
  {
    assert Pow2(1) == 2 && Pow2(2) == 4 && Pow2(3) == 8 && Pow2(4) == 16 && Pow2(5) == 32;
  }

  /** `wetAmountTarget`: the wet percentage as a fraction, per channel. */
  function WetAmountTarget(snap: Snapshot): (t: Vec2)
    ensures snap.InRange() ==> Within(t, 0.0, 1.0)
    ensures snap.wet.isLinked ==> t.c0 == t.c1
  {
    Vec2(0.01 * snap.wet.Get(0), 0.01 * snap.wet.Get(1))
  }

  /** `gainTarget[i]`: stage `i`'s gain in dB as a linear factor, per channel. */
  function GainTarget(math: Math, snap: Snapshot, i: nat): (g: Vec2)
    requires i < 2
    ensures g.c0 > 0.0 && g.c1 > 0.0
    ensures snap.Gain(i).isLinked ==> g.c0 == g.c1
  {
    Vec2(math.exp(DbToLin * snap.Gain(i).Get(0)), math.exp(DbToLin * snap.Gain(i).Get(1)))
  }

  /** Everything a block derives from the parameters and the host before it
      touches audio. */
  datatype BlockSettings = BlockSettings(
    midSide: bool,
    automationAlpha: real,
    isOversampling: bool,
    oversampler: OversamplerConfig,
    shaper: ShaperSettings,
    wetAmountTarget: Vec2,
    inputGainTarget: Vec2,
    outputGainTarget: Vec2,
    vuMeterAlpha: real,
    numOutputChannels: nat)

  function BlockSettingsOf(snap: Snapshot, host: Host, math: Math): (bs: BlockSettings)
    ensures snap.smoothingTime == 0.0 ==> bs.automationAlpha == 0.0 && bs.shaper.automationAlpha == 0.0
    ensures snap.smoothingTime != 0.0 ==> bs.automationAlpha > 0.0 && bs.shaper.automationAlpha > 0.0
    ensures bs.isOversampling <==> snap.oversamplingOrder > 0
    ensures bs.vuMeterAlpha > 0.0
  {
    var smoothingTime := 0.001 * snap.smoothingTime;
    var invSampleRate := 1.0 / host.sampleRate;
    var invUpsampledSampleRate := invSampleRate / OversamplingRate(snap.oversamplingOrder);
    BlockSettings(
      snap.midSide,
      SmoothingAlpha(math, smoothingTime, invSampleRate),
      snap.oversamplingOrder > 0,
      OversamplerConfig(snap.oversamplingOrder, snap.oversamplingLinearPhase),
      ShaperSettings(
        snap.numActiveKnots,
        Vec2(if snap.symmetry.Get(0) then 1.0 else 0.0, if snap.symmetry.Get(1) then 1.0 else 0.0),
        SmoothingAlpha(math, smoothingTime, invUpsampledSampleRate)),
      WetAmountTarget(snap),
      GainTarget(math, snap, 0),
      GainTarget(math, snap, 1),
      math.exp(-TwoPi * invSampleRate * VuMeterFrequency),
      host.numOutputChannels)
  }

  /** With an `exp` that maps non-positive arguments into (0, 1] and
      parameters in their declared ranges, the smoothing coefficients of a
      block lie in [0, 1] and the meter coefficient in (0, 1]. */
  lemma CoefficientsInUnitRange(snap: Snapshot, host: Host, math: Math)
    requires forall x: real :: x <= 0.0 ==> math.exp(x) <= 1.0
    requires snap.InRange()
    ensures var bs := BlockSettingsOf(snap, host, math);
      && 0.0 <= bs.automationAlpha <= 1.0
      && 0.0 <= bs.shaper.automationAlpha <= 1.0
      && 0.0 < bs.vuMeterAlpha <= 1.0
  {
    var smoothingTime := 0.001 * snap.smoothingTime;
    var invSampleRate := 1.0 / host.sampleRate;
    var invUpsampledSampleRate := invSampleRate / OversamplingRate(snap.oversamplingOrder);
    assert invSampleRate > 0.0 && invUpsampledSampleRate > 0.0;
    if smoothingTime != 0.0 {
      assert smoothingTime > 0.0;
      assert -TwoPi * invSampleRate / smoothingTime <= 0.0;
      assert -TwoPi * invUpsampledSampleRate / smoothingTime <= 0.0;
    }
    assert -TwoPi * invSampleRate * VuMeterFrequency <= 0.0;
  }

  /** The coefficient handed to the spline's automation is the one for the
      same smoothing time at the oversampled rate `sampleRate · 2^order`. */
  lemma UpsampledAlphaUsesOversampledRate(snap: Snapshot, host: Host, math: Math)
    ensures BlockSettingsOf(snap, host, math).shaper.automationAlpha ==
      SmoothingAlpha(math, 0.001 * snap.smoothingTime, 1.0 / (host.sampleRate * OversamplingRate(snap.oversamplingOrder)))
  {
    var sr: real := host.sampleRate;
    var rate := OversamplingRate(snap.oversamplingOrder);
    var a := 1.0 / sr;
    var b := a / rate;
    assert a * sr == 1.0;
    assert b * rate == a;
    assert b * (sr * rate) == (b * rate) * sr;
    assert b == 1.0 / (sr * rate);
    assert BlockSettingsOf(snap, host, math).shaper.automationAlpha == SmoothingAlpha(math, 0.001 * snap.smoothingTime, b);
    assert sr * rate == host.sampleRate * OversamplingRate(snap.oversamplingOrder);
  }

  // ------------------------------------------------------------- decisions

  /** The `isWetPassNeeded` lambda: the blend can be skipped when the product
      of the four amounts (target and current, both channels) is 1, or when
      all four are 0. */
  function IsWetPassNeeded(wetAmountTarget: Vec2, wetAmount: Vec2): (needed: bool)
    ensures wetAmountTarget == wetAmount == Splat(1.0) ==> !needed
    ensures wetAmountTarget == wetAmount == Zero ==> !needed
  {
    var m := wetAmountTarget.c0 * wetAmountTarget.c1 * wetAmount.c0 * wetAmount.c1;
    if m == 1.0 then
      false
    else if m == 0.0 then
      !(wetAmountTarget.c0 == 0.0 && wetAmountTarget.c1 == 0.0 && wetAmount.c0 == 0.0 && wetAmount.c1 == 0.0)
    else
      true
  }

  /** `isBypassing`: no blend is needed and channel 0 is fully dry. This
      holds exactly when every amount, target and current, is 0. */
  function IsBypassing(wetAmountTarget: Vec2, wetAmount: Vec2): (bypassing: bool)
    ensures bypassing <==> wetAmountTarget == Zero && wetAmount == Zero
  {
    !IsWetPassNeeded(wetAmountTarget, wetAmount) && wetAmount.c0 == 0.0
  }

  lemma UnitProduct(x: real, y: real)
    requires 0.0 <= x <= 1.0 && 0.0 <= y <= 1.0
    ensures 0.0 <= x * y <= x && x * y <= y
  {
    assert x * (1.0 - y) >= 0.0;
    assert y * (1.0 - x) >= 0.0;
  }

  /** Four amounts in [0, 1] have product 1 only when all four are 1. */
  lemma UnitProductIsOne(a: real, b: real, c: real, d: real)
    requires 0.0 <= a <= 1.0 && 0.0 <= b <= 1.0 && 0.0 <= c <= 1.0 && 0.0 <= d <= 1.0
    requires a * b * c * d == 1.0
    ensures a == 1.0 && b == 1.0 && c == 1.0 && d == 1.0
  {
    UnitProduct(a, b);
    UnitProduct(a * b, c);
    UnitProduct(a * b * c, d);
    UnitProduct(c, d);
  }

  /** With amounts in [0, 1] the blend is skipped exactly when no transition is
      in flight and the mix is fully wet on both channels, or fully dry. */
  lemma WetPassDecision(wetAmountTarget: Vec2, wetAmount: Vec2)
    requires Within(wetAmountTarget, 0.0, 1.0) && Within(wetAmount, 0.0, 1.0)
    ensures !IsWetPassNeeded(wetAmountTarget, wetAmount) <==>
      (wetAmountTarget == wetAmount == Splat(1.0)) || (wetAmountTarget == wetAmount == Zero)
  {
    var m := wetAmountTarget.c0 * wetAmountTarget.c1 * wetAmount.c0 * wetAmount.c1;
    if m == 1.0 {
      UnitProductIsOne(wetAmountTarget.c0, wetAmountTarget.c1, wetAmount.c0, wetAmount.c1);
    }
  }

  // ------------------------------------------------------ dry/wet and meters

  /** The dry/wet blend `amount·(wet − dry) + dry` of one lane. */
  function Mix(amount: real, wet: real, dry: real): (r: real)
    ensures amount == 1.0 ==> r == wet
    ensures amount == 0.0 ==> r == dry
  {
    amount * (wet - dry) + dry
  }

  /** An amount in [0, 1] blends to a value between the dry and the wet sample. */
  lemma MixBetween(amount: real, wet: real, dry: real)
    requires 0.0 <= amount <= 1.0
    ensures dry <= wet ==> dry <= Mix(amount, wet, dry) <= wet
    ensures wet <= dry ==> wet <= Mix(amount, wet, dry) <= dry
  {
    var d := wet - dry;
    ScaledBetween(amount, d);
    assert Mix(amount, wet, dry) == amount * d + dry;
  }

  function MixV(amount: Vec2, wet: Vec2, dry: Vec2): Vec2 {
    Vec2(Mix(amount.c0, wet.c0, dry.c0), Mix(amount.c1, wet.c1, dry.c1))
  }

  /** The blended frames: frame `i` mixes `wets[i]` and `dry[i]` with the
      `(i+1)`-th iterate of the wet-amount smoother. */
  function Blended(wets: seq<Vec2>, dry: seq<Vec2>, amount: Vec2, amountTarget: Vec2, alpha: real): (ys: seq<Vec2>)
    requires |wets| <= |dry|
    ensures |ys| == |wets|
  {
    seq(|wets|, i requires 0 <= i < |wets| => MixV(IterateV(amount, amountTarget, alpha, i + 1), wets[i], dry[i]))
  }

  /** Skipping the blend is sound: with the amount settled at 1 the blend
      yields the wet frames, and settled at 0 the dry frames. */
  lemma SettledBlend(wets: seq<Vec2>, dry: seq<Vec2>, alpha: real)
    requires |wets| == |dry|
    ensures Blended(wets, dry, Splat(1.0), Splat(1.0), alpha) == wets
    ensures Blended(wets, dry, Zero, Zero, alpha) == dry
  {
    forall i | 0 <= i < |wets|
      ensures Blended(wets, dry, Splat(1.0), Splat(1.0), alpha)[i] == wets[i]
      ensures Blended(wets, dry, Zero, Zero, alpha)[i] == dry[i]
    {
      IterateFixedPoint(1.0, alpha, i + 1);
      IterateFixedPoint(0.0, alpha, i + 1);
    }
  }

  /** One step of an envelope follower fed with the square `x`. */
  function Follow(env: real, alpha: real, x: real): real {
    alpha * (env - x) + x
  }

  function FollowV(env: Vec2, alpha: real, x: Vec2): Vec2 {
    Vec2(Follow(env.c0, alpha, x.c0), Follow(env.c1, alpha, x.c1))
  }

  /** The follower's state after consuming `squares` in order. */
  function Envelope(env: Vec2, alpha: real, squares: seq<Vec2>): Vec2
    decreases |squares|
  {
    if squares == [] then env
    else FollowV(Envelope(env, alpha, squares[..|squares| - 1]), alpha, squares[|squares| - 1])
  }

  function Squares(xs: seq<Vec2>): (ys: seq<Vec2>)
    ensures |ys| == |xs|
  {
    seq(|xs|, i requires 0 <= i < |xs| => Square(xs[i]))
  }

  lemma SquareNonNegative(x: real)
    ensures x * x >= 0.0
  {
    if x < 0.0 {
      assert x * x == (-x) * (-x);
    }
  }

  /** The meter envelopes are convex combinations of squares: for `alpha` in
      [0, 1] and a non-negative start they never go negative. */
  lemma {:induction false} EnvelopeNonNegative(env: Vec2, alpha: real, xs: seq<Vec2>)
    requires 0.0 <= alpha <= 1.0 && NonNegative(env)
    ensures NonNegative(Envelope(env, alpha, Squares(xs)))
    decreases |xs|
  {
    if xs != [] {
      var k := |xs| - 1;
      assert Squares(xs)[..k] == Squares(xs[..k]);
      EnvelopeNonNegative(env, alpha, xs[..k]);
      var e := Envelope(env, alpha, Squares(xs[..k]));
      SquareNonNegative(xs[k].c0);
      SquareNonNegative(xs[k].c1);
      FollowNonNegative(e.c0, alpha, xs[k].c0 * xs[k].c0);
      FollowNonNegative(e.c1, alpha, xs[k].c1 * xs[k].c1);
    }
  }

  lemma FollowNonNegative(env: real, alpha: real, x: real)
    requires 0.0 <= alpha <= 1.0 && 0.0 <= env && 0.0 <= x
    ensures Follow(env, alpha, x) >= 0.0
  {
    var d := env - x;
    ScaledBetween(alpha, d);
    assert Follow(env, alpha, x) == alpha * d + x;
    if 0.0 <= d {
      assert alpha * d + x >= x;
      assert Follow(env, alpha, x) >= 0.0;
    } else {
      assert alpha * d + x >= d + x == env;
      assert Follow(env, alpha, x) >= 0.0;
    }
  }

  /** `toDB`: `(10 / ln 10) · log(linear + FLT_MIN)` on each lane. */
  function ToDB(math: Math, linear: Vec2): Vec2 {
    Vec2((10.0 / Ln10) * math.log(linear.c0 + FltMin), (10.0 / Ln10) * math.log(linear.c1 + FltMin))
  }

  /** Appending one square to the input advances the follower by one step. */
  lemma EnvelopeStep(env: Vec2, alpha: real, squares: seq<Vec2>, i: nat)
    requires i < |squares|
    ensures Envelope(env, alpha, squares[..i + 1]) == FollowV(Envelope(env, alpha, squares[..i]), alpha, squares[i])
  {
    assert squares[..i + 1][..i] == squares[..i];
  }

  /** The wet-pass loop: advances the wet-amount and output-gain smoothers,
      blends each wet frame with its dry frame in place, and feeds the squared
      wet and dry frames to the meter envelopes. */
  method WetPass(wetData: array<Vec2>, dryData: seq<Vec2>, amount0: Vec2, amountTarget: Vec2,
                 gain0: Vec2, gainTarget: Vec2, alpha: real, vuMeterAlpha: real, vuDry0: Vec2, vuWet0: Vec2)
    returns (amount: Vec2, outputGain: Vec2, vuMeterDry: Vec2, vuMeterWet: Vec2)
    requires |dryData| == wetData.Length
    modifies wetData
    ensures wetData[..] == Blended(Ramped(old(wetData[..]), gain0, gainTarget, alpha), dryData, amount0, amountTarget, alpha)
    ensures amount == IterateV(amount0, amountTarget, alpha, wetData.Length)
    ensures outputGain == IterateV(gain0, gainTarget, alpha, wetData.Length)
    ensures vuMeterWet == Envelope(vuWet0, vuMeterAlpha, Squares(Ramped(old(wetData[..]), gain0, gainTarget, alpha)))
    ensures vuMeterDry == Envelope(vuDry0, vuMeterAlpha, Squares(dryData))
  {
    var n := wetData.Length;
    ghost var wets := Ramped(wetData[..], gain0, gainTarget, alpha);
    ghost var blended := Blended(wets, dryData, amount0, amountTarget, alpha);
    ghost var wetSquares := Squares(wets);
    ghost var drySquares := Squares(dryData);
    amount, outputGain, vuMeterDry, vuMeterWet := amount0, gain0, vuDry0, vuWet0;
    for i := 0 to n
      invariant amount == IterateV(amount0, amountTarget, alpha, i)
      invariant outputGain == IterateV(gain0, gainTarget, alpha, i)
      invariant vuMeterWet == Envelope(vuWet0, vuMeterAlpha, wetSquares[..i])
      invariant vuMeterDry == Envelope(vuDry0, vuMeterAlpha, drySquares[..i])
      invariant wetData[..i] == blended[..i]
      invariant wetData[i..] == old(wetData[..])[i..]
    {
      assert wetData[i] == old(wetData[..])[i];
      amount := SmoothV(amount, amountTarget, alpha);
      outputGain := SmoothV(outputGain, gainTarget, alpha);
      var wet := Mul(outputGain, wetData[i]);
      var dry := dryData[i];
      wetData[i] := MixV(amount, wet, dry);
      vuMeterWet := FollowV(vuMeterWet, vuMeterAlpha, Square(wet));
      vuMeterDry := FollowV(vuMeterDry, vuMeterAlpha, Square(dry));
      EnvelopeStep(vuWet0, vuMeterAlpha, wetSquares, i);
      EnvelopeStep(vuDry0, vuMeterAlpha, drySquares, i);
      assert wetData[..i + 1] == wetData[..i] + [wetData[i]];
      assert blended[..i + 1] == blended[..i] + [blended[i]];
    }
    assert wetSquares[..n] == wetSquares;
    assert drySquares[..n] == drySquares;
    assert wetData[..] == wetData[..n];
  }

  /** The loop taken when no blend is needed and the block is not bypassed:
      only the output gain is applied, and the meters still run. */
  method OutputGainPass(wetData: array<Vec2>, dryData: seq<Vec2>, gain0: Vec2, gainTarget: Vec2,
                        alpha: real, vuMeterAlpha: real, vuDry0: Vec2, vuWet0: Vec2)
    returns (outputGain: Vec2, vuMeterDry: Vec2, vuMeterWet: Vec2)
    requires |dryData| == wetData.Length
    modifies wetData
    ensures wetData[..] == Ramped(old(wetData[..]), gain0, gainTarget, alpha)
    ensures outputGain == IterateV(gain0, gainTarget, alpha, wetData.Length)
    ensures vuMeterWet == Envelope(vuWet0, vuMeterAlpha, Squares(wetData[..]))
    ensures vuMeterDry == Envelope(vuDry0, vuMeterAlpha, Squares(dryData))
  {
    var n := wetData.Length;
    ghost var wets := Ramped(wetData[..], gain0, gainTarget, alpha);
    ghost var wetSquares := Squares(wets);
    ghost var drySquares := Squares(dryData);
    outputGain, vuMeterDry, vuMeterWet := gain0, vuDry0, vuWet0;
    for i := 0 to n
      invariant outputGain == IterateV(gain0, gainTarget, alpha, i)
      invariant vuMeterWet == Envelope(vuWet0, vuMeterAlpha, wetSquares[..i])
      invariant vuMeterDry == Envelope(vuDry0, vuMeterAlpha, drySquares[..i])
      invariant wetData[..i] == wets[..i]
      invariant wetData[i..] == old(wetData[..])[i..]
    {
      assert wetData[i] == old(wetData[..])[i];
      outputGain := SmoothV(outputGain, gainTarget, alpha);
      var wet := Mul(outputGain, wetData[i]);
      wetData[i] := wet;
      vuMeterWet := FollowV(vuMeterWet, vuMeterAlpha, Square(wet));
      vuMeterDry := FollowV(vuMeterDry, vuMeterAlpha, Square(dryData[i]));
      EnvelopeStep(vuWet0, vuMeterAlpha, wetSquares, i);
      EnvelopeStep(vuDry0, vuMeterAlpha, drySquares, i);
      assert wetData[..i + 1] == wetData[..i] + [wetData[i]];
      assert wets[..i + 1] == wets[..i] + [wets[i]];
    }
    assert wetSquares[..n] == wetSquares;
    assert drySquares[..n] == drySquares;
    assert wetData[..] == wetData[..n];
  }

  // ------------------------------------------------------------- the block

  /** The processor's state carried from block to block: the input- and
      output-gain smoothers (`gain[0]`, `gain[1]`), the wet-amount smoother,
      the dry and wet meter envelopes and the meter reading
      (`vuMeterBuffer[0..2]`), and the published meter values. */
  datatype ProcessorState = ProcessorState(
    inputGain: Vec2,
    outputGain: Vec2,
    wetAmount: Vec2,
    vuMeterDry: Vec2,
    vuMeterWet: Vec2,
    vuMeter: Vec2,
    vuMeterResults: Vec2)

  /** What a block leaves behind: either the early return taken while the
      oversampler is priming, or the processed frames of channels 0 and 1.
      `dry` is the content of the dry buffer in both cases. */
  datatype BlockOutcome =
    | Silenced(state: ProcessorState, dry: seq<Vec2>)
    | Processed(frames: seq<Vec2>, state: ProcessorState, dry: seq<Vec2>)

  /** The meter reading: the wet envelope against the dry envelope scaled by
      the squared product of the two gain targets, both in dB. */
  function MeterReading(math: Math, vuMeterWet: Vec2, vuMeterDry: Vec2, inputGainTarget: Vec2, outputGainTarget: Vec2): (r: Vec2)
    ensures Mul(Square(Mul(outputGainTarget, inputGainTarget)), vuMeterDry) == vuMeterWet ==> r == Zero
  {
    var gainOffset := Square(Mul(outputGainTarget, inputGainTarget));
    Sub(ToDB(math, vuMeterWet), ToDB(math, Mul(gainOffset, vuMeterDry)))
  }

  /** `toDB` never hands `log` a value below `FLT_MIN`: with non-negative
      envelopes both arguments of the meter reading's logarithms are positive. */
  lemma MeterReadingLogArgumentsPositive(vuMeterWet: Vec2, vuMeterDry: Vec2, inputGainTarget: Vec2, outputGainTarget: Vec2)
    requires NonNegative(vuMeterWet) && NonNegative(vuMeterDry)
    ensures var scaled := Mul(Square(Mul(outputGainTarget, inputGainTarget)), vuMeterDry);
      && vuMeterWet.c0 + FltMin > 0.0 && vuMeterWet.c1 + FltMin > 0.0
      && scaled.c0 + FltMin > 0.0 && scaled.c1 + FltMin > 0.0
  {
    var g := Mul(outputGainTarget, inputGainTarget);
    SquareNonNegative(g.c0);
    SquareNonNegative(g.c1);
    MulNonNegative(g.c0 * g.c0, vuMeterDry.c0);
    MulNonNegative(g.c1 * g.c1, vuMeterDry.c1);
    assert FltMin > 0.0;
  }

  /** The dry/wet stage and the store-back, on the (downsampled) wet and dry
      frames: the frames written back to the buffer, before the inverse
      mid-side transform, and the new state. */
  function Mixdown(st: ProcessorState, wets: seq<Vec2>, dry: seq<Vec2>, bs: BlockSettings, math: Math): (r: (seq<Vec2>, ProcessorState))
    requires |wets| == |dry|
    ensures |r.0| == |wets|
    ensures r.1.inputGain == st.inputGain
    ensures r.1.vuMeterResults == r.1.vuMeter
  {
    var needed := IsWetPassNeeded(bs.wetAmountTarget, st.wetAmount);
    var gained := Ramped(wets, st.outputGain, bs.outputGainTarget, bs.automationAlpha);
    var outputGain := IterateV(st.outputGain, bs.outputGainTarget, bs.automationAlpha, |wets|);
    var vuMeterDry := Envelope(st.vuMeterDry, bs.vuMeterAlpha, Squares(dry));
    var vuMeterWet := Envelope(st.vuMeterWet, bs.vuMeterAlpha, Squares(gained));
    var vuMeter := MeterReading(math, vuMeterWet, vuMeterDry, bs.inputGainTarget, bs.outputGainTarget);
    if needed then
      var st' := st.(outputGain := outputGain, vuMeterDry := vuMeterDry, vuMeterWet := vuMeterWet,
                     vuMeter := vuMeter, vuMeterResults := vuMeter,
                     wetAmount := IterateV(st.wetAmount, bs.wetAmountTarget, bs.automationAlpha, |wets|));
      (Blended(gained, dry, st.wetAmount, bs.wetAmountTarget, bs.automationAlpha), st')
    else if !IsBypassing(bs.wetAmountTarget, st.wetAmount) then
      var st' := st.(outputGain := outputGain, vuMeterDry := vuMeterDry, vuMeterWet := vuMeterWet,
                     vuMeter := vuMeter, vuMeterResults := vuMeter);
      (gained, st')
    else
      (dry, st.(vuMeter := Zero, vuMeterResults := Zero))
  }

  /** The result of the oversampling stage: nothing while the oversampler
      is still priming (it produced no samples), otherwise the wet and the dry
      frames brought back to the block's length. */
  datatype Resampling =
    | Priming
    | Resampled(wet: seq<Vec2>, dry: seq<Vec2>)

  /** Upsampling of the gained and the dry frames when oversampling, the
      waveshaper on the wet frames unless bypassing, and downsampling back to
      the block's length. */
  function Resample(gained: seq<Vec2>, dry: seq<Vec2>, bs: BlockSettings, bypassing: bool,
                    signal: Oversampler, dryOversampler: Oversampler, shaper: Waveshaper): (r: Resampling)
    requires signal.Valid() && dryOversampler.Valid() && shaper.Valid()
    requires |gained| == |dry|
    ensures r.Priming? <==> bs.isOversampling && |signal.upSample(bs.oversampler, gained)| == 0
    ensures r.Resampled? ==> |r.wet| == |dry| && |r.dry| == |dry|
    ensures r.Resampled? && !bs.isOversampling ==> r.dry == dry
    ensures r.Resampled? && !bs.isOversampling && bypassing ==> r.wet == gained
  {
    var n := |dry|;
    var up := if bs.isOversampling then signal.upSample(bs.oversampler, gained) else gained;
    var upDry := if bs.isOversampling then dryOversampler.upSample(bs.oversampler, dry) else dry;
    if bs.isOversampling && |up| == 0 then
      Priming
    else
      var shaped := if bypassing then up else shaper.process(bs.shaper, up);
      var wetOut := if bs.isOversampling then signal.downSample(bs.oversampler, shaped, n) else shaped;
      var dryOut := if bs.isOversampling then dryOversampler.downSample(bs.oversampler, upDry, n) else upDry;
      Resampled(wetOut, dryOut)
  }

  /** Everything `processBlock` does after the input gain, given the state
      `st` at that point (input gain already advanced), the gained frames and
      the dry frames: oversampling with the early return, shaping, downsampling,
      the dry/wet stage and the inverse mid-side transform. */
  function BlockTail(st: ProcessorState, gained: seq<Vec2>, dry: seq<Vec2>, bs: BlockSettings,
                     signal: Oversampler, dryOversampler: Oversampler, shaper: Waveshaper, math: Math): (out: BlockOutcome)
    requires signal.Valid() && dryOversampler.Valid() && shaper.Valid()
    requires |gained| == |dry|
    ensures out.dry == dry
    ensures out.Processed? ==> |out.frames| == |dry|
    ensures out.Silenced? <==> bs.isOversampling && |signal.upSample(bs.oversampler, gained)| == 0
    ensures out.Silenced? ==> out.state == st
    ensures out.state.inputGain == st.inputGain
  {
    match Resample(gained, dry, bs, IsBypassing(bs.wetAmountTarget, st.wetAmount), signal, dryOversampler, shaper)
    case Priming => Silenced(st, dry)
    case Resampled(wetOut, dryOut) =>
      var (frames, st') := Mixdown(st, wetOut, dryOut, bs, math);
      Processed(if bs.midSide then LeftRightFrames(frames) else frames, st', dry)
  }

  /** `BlockTail` past the early return, in terms of its two stages. */
  lemma BlockTailResampled(st: ProcessorState, gained: seq<Vec2>, dry: seq<Vec2>, bs: BlockSettings,
                           signal: Oversampler, dryOversampler: Oversampler, shaper: Waveshaper, math: Math)
    requires signal.Valid() && dryOversampler.Valid() && shaper.Valid()
    requires |gained| == |dry|
    requires Resample(gained, dry, bs, IsBypassing(bs.wetAmountTarget, st.wetAmount), signal, dryOversampler, shaper).Resampled?
    ensures var r := Resample(gained, dry, bs, IsBypassing(bs.wetAmountTarget, st.wetAmount), signal, dryOversampler, shaper);
      var mix := Mixdown(st, r.wet, r.dry, bs, math);
      BlockTail(st, gained, dry, bs, signal, dryOversampler, shaper, math)
        == Processed(if bs.midSide then LeftRightFrames(mix.0) else mix.0, mix.1, dry)
  {
  }

  /** One call of the double-precision `processBlock` on the frames of
      channels 0 and 1, as a function of the state before the block, the
      block's settings and the collaborators: the mid-side transform, the copy
      of the dry signal, the input gain, then `BlockTail`. */
  function ProcessBlockSpec(st: ProcessorState, input: seq<Vec2>, bs: BlockSettings,
                            signal: Oversampler, dryOversampler: Oversampler, shaper: Waveshaper, math: Math): (out: BlockOutcome)
    requires signal.Valid() && dryOversampler.Valid() && shaper.Valid()
    ensures |out.dry| == |input|
    ensures out.Processed? ==> |out.frames| == |input|
    ensures out.Silenced? <==> bs.isOversampling && |signal.upSample(bs.oversampler, Ramped(out.dry, st.inputGain, bs.inputGainTarget, bs.automationAlpha))| == 0
    ensures out.state.inputGain == IterateV(st.inputGain, bs.inputGainTarget, bs.automationAlpha, |input|)
  {
    var dry := if bs.midSide then MidSideFrames(input) else input;
    var gained := Ramped(dry, st.inputGain, bs.inputGainTarget, bs.automationAlpha);
    var st' := st.(inputGain := IterateV(st.inputGain, bs.inputGainTarget, bs.automationAlpha, |input|));
    BlockTail(st', gained, dry, bs, signal, dryOversampler, shaper, math)
  }

  /** The early return: while the oversampler is priming only the input-gain
      smoother has advanced; the wet amount, the output gain and the meters
      keep their values, and the dry buffer holds the (mid-side) input. */
  lemma SilencedBlockKeepsState(st: ProcessorState, input: seq<Vec2>, bs: BlockSettings,
                                signal: Oversampler, dryOversampler: Oversampler, shaper: Waveshaper, math: Math)
    requires signal.Valid() && dryOversampler.Valid() && shaper.Valid()
    requires ProcessBlockSpec(st, input, bs, signal, dryOversampler, shaper, math).Silenced?
    ensures var out := ProcessBlockSpec(st, input, bs, signal, dryOversampler, shaper, math);
      && out.state == st.(inputGain := IterateV(st.inputGain, bs.inputGainTarget, bs.automationAlpha, |input|))
      && out.dry == (if bs.midSide then MidSideFrames(input) else input)
  {
  }

  /** Bypassing without oversampling hands the input back unchanged, whatever
      the mid-side setting, and zeroes the meter reading; the output-gain
      smoother and the meter envelopes are not stored. */
  lemma BypassPassesInputThrough(st: ProcessorState, input: seq<Vec2>, bs: BlockSettings,
                                 signal: Oversampler, dryOversampler: Oversampler, shaper: Waveshaper, math: Math)
    requires signal.Valid() && dryOversampler.Valid() && shaper.Valid()
    requires !bs.isOversampling && IsBypassing(bs.wetAmountTarget, st.wetAmount)
    ensures var out := ProcessBlockSpec(st, input, bs, signal, dryOversampler, shaper, math);
      && out.Processed?
      && out.frames == input
      && out.state == st.(inputGain := IterateV(st.inputGain, bs.inputGainTarget, bs.automationAlpha, |input|),
                          vuMeter := Zero, vuMeterResults := Zero)
  {
    MidSideRoundTrip(input);
  }

  /** Bypassing at any oversampling order: past the early return the block
      outputs the dry path (brought back to left/right when mid-side is on),
      zeroes the meter reading and stores neither the output gain nor the
      meter envelopes nor the wet amount. */
  lemma BypassOutputsDryPath(st: ProcessorState, input: seq<Vec2>, bs: BlockSettings,
                             signal: Oversampler, dryOversampler: Oversampler, shaper: Waveshaper, math: Math)
    requires signal.Valid() && dryOversampler.Valid() && shaper.Valid()
    requires IsBypassing(bs.wetAmountTarget, st.wetAmount)
    requires ProcessBlockSpec(st, input, bs, signal, dryOversampler, shaper, math).Processed?
    ensures var out := ProcessBlockSpec(st, input, bs, signal, dryOversampler, shaper, math);
      var gained := Ramped(out.dry, st.inputGain, bs.inputGainTarget, bs.automationAlpha);
      var r := Resample(gained, out.dry, bs, true, signal, dryOversampler, shaper);
      && r.Resampled?
      && out.frames == (if bs.midSide then LeftRightFrames(r.dry) else r.dry)
      && out.state == st.(inputGain := IterateV(st.inputGain, bs.inputGainTarget, bs.automationAlpha, |input|),
                          vuMeter := Zero, vuMeterResults := Zero)
  {
  }

  /** The smoothed wet amount is stored back on the wet pass only: a block
      that needs no blend leaves it as it was, and a processed block that
      blends ends it at the `n`-th iterate towards the target. */
  lemma WetAmountStoredOnlyOnWetPass(st: ProcessorState, input: seq<Vec2>, bs: BlockSettings,
                                     signal: Oversampler, dryOversampler: Oversampler, shaper: Waveshaper, math: Math)
    requires signal.Valid() && dryOversampler.Valid() && shaper.Valid()
    ensures var out := ProcessBlockSpec(st, input, bs, signal, dryOversampler, shaper, math);
      && (!IsWetPassNeeded(bs.wetAmountTarget, st.wetAmount) ==> out.state.wetAmount == st.wetAmount)
      && (IsWetPassNeeded(bs.wetAmountTarget, st.wetAmount) && out.Processed? ==>
            out.state.wetAmount == IterateV(st.wetAmount, bs.wetAmountTarget, bs.automationAlpha, |input|))
  {
  }

  /** With the wet amount and its target in [0, 1] and a coefficient in
      [0, 1], the stored wet amount stays in [0, 1]. */
  lemma WetAmountStaysInUnitRange(st: ProcessorState, input: seq<Vec2>, bs: BlockSettings,
                                  signal: Oversampler, dryOversampler: Oversampler, shaper: Waveshaper, math: Math)
    requires signal.Valid() && dryOversampler.Valid() && shaper.Valid()
    requires Within(st.wetAmount, 0.0, 1.0) && Within(bs.wetAmountTarget, 0.0, 1.0)
    requires 0.0 <= bs.automationAlpha <= 1.0
    ensures Within(ProcessBlockSpec(st, input, bs, signal, dryOversampler, shaper, math).state.wetAmount, 0.0, 1.0)
  {
    forall k: nat
      ensures Within(IterateV(st.wetAmount, bs.wetAmountTarget, bs.automationAlpha, k), 0.0, 1.0)
    {
      IterateBetween(st.wetAmount.c0, bs.wetAmountTarget.c0, bs.automationAlpha, k);
      IterateBetween(st.wetAmount.c1, bs.wetAmountTarget.c1, bs.automationAlpha, k);
    }
  }

  /** Lanes strictly above zero. */
  predicate Positive2(v: Vec2) {
    v.c0 > 0.0 && v.c1 > 0.0
  }

  /** Gain smoothers that start positive and run towards positive targets stay
      positive. */
  lemma GainsStayPositive(st: ProcessorState, input: seq<Vec2>, bs: BlockSettings,
                          signal: Oversampler, dryOversampler: Oversampler, shaper: Waveshaper, math: Math)
    requires signal.Valid() && dryOversampler.Valid() && shaper.Valid()
    requires Positive2(st.inputGain) && Positive2(st.outputGain)
    requires Positive2(bs.inputGainTarget) && Positive2(bs.outputGainTarget)
    requires 0.0 <= bs.automationAlpha <= 1.0
    ensures var out := ProcessBlockSpec(st, input, bs, signal, dryOversampler, shaper, math);
      Positive2(out.state.inputGain) && Positive2(out.state.outputGain)
  {
    forall v: Vec2, t: Vec2, k: nat | Positive2(v) && Positive2(t)
      ensures Positive2(IterateV(v, t, bs.automationAlpha, k))
    {
      IterateBetween(v.c0, t.c0, bs.automationAlpha, k);
      IterateBetween(v.c1, t.c1, bs.automationAlpha, k);
    }
  }

  /** The meter envelopes stay non-negative when the meter coefficient lies in [0, 1]. */
  lemma MeterEnvelopesStayNonNegative(st: ProcessorState, input: seq<Vec2>, bs: BlockSettings,
                                      signal: Oversampler, dryOversampler: Oversampler, shaper: Waveshaper, math: Math)
    requires signal.Valid() && dryOversampler.Valid() && shaper.Valid()
    requires NonNegative(st.vuMeterDry) && NonNegative(st.vuMeterWet)
    requires 0.0 <= bs.vuMeterAlpha <= 1.0
    ensures var out := ProcessBlockSpec(st, input, bs, signal, dryOversampler, shaper, math);
      NonNegative(out.state.vuMeterDry) && NonNegative(out.state.vuMeterWet)
  {
    forall env: Vec2, xs: seq<Vec2> | NonNegative(env)
      ensures NonNegative(Envelope(env, bs.vuMeterAlpha, Squares(xs)))
    {
      EnvelopeNonNegative(env, bs.vuMeterAlpha, xs);
    }
  }
}
